=== FILE: README.md ===
# Membership and route-group assignment engine

A Dafny model of the core of a company-transport backend. Employees ask to join a
company. The company's admin approves or rejects them, registers vehicles, opens
route groups on those vehicles, and seats approved members in a group, one of
them as the driver.

The database is an immutable record of tables (`Schema.Db`), each a sequence of
rows in storage order. Every service is a pure function from a database to a
`Step`: the database afterwards plus a `Result` carrying either the answer or an
`Error` with the backend's kind (BadRequest, Unauthorized, Forbidden, NotFound,
Conflict) and its exact message. A failed or rolled-back operation returns the
database it was given (`Schema.Atomic`).

The model has these layers:

- **Tables** (`Tables`, `Directory`, `Vehicles`, `RouteGroups`,
  `CompanyLocations`, `CompanyMembers`, `GroupMembers`). These are the model
  files' inserts, lookups, listings and conditional updates.
  - `LIMIT 1` is the first match in storage order.
  - `ORDER BY` is modelled as a stable sort. This tie order is the model's own choice, since the database leaves rows with equal sort keys in no defined order; the listing contracts state only the order and the multiset of rows, which any tie order meets.
  - A unique key is an insert that reports `DuplicateEntry` when a colliding row
    exists. The keys are: a vehicle's plate; a group's vehicle; a seat's (group,
    user) and (group, pickup order); a user's e-mail; a company's name.
- **Membership state machine** (`CompanyService`, `AdminService`, `AdminGate`).
  - A join request creates a PENDING row.
  - An admin's decision moves only PENDING rows, to APPROVED or REJECTED.
  - The current membership is the row with the latest request time.
  - The admin gate lets a user through only when that row is an approved ADMIN
    one, and hands the routes its company.
- **Vehicle and route-group registry, and the assignment coordinator**
  (`TransportService`). These are the ordered, short-circuiting checks of vehicle
  creation, group creation and seat assignment, with seat assignment's
  transactional "clear the drivers, then insert" step.
  - `backend/src/services/vehicle.service.js` repeats the vehicle rules of
    `backend/src/services/transport.service.js`, and
    `backend/src/services/route_group.service.js` repeats its group rules. Each
    rule is modelled once, against `transport.service.js`.
- **Registration and login** (`AuthService`). Employee registration, company-admin
  onboarding as one transaction, and login's decision. Password hashing and token
  signing are foreign code: see below.
- **Invariants** (`Invariants`). These are the cross-table invariants and their
  preservation by every writing operation:
  - plates are unique;
  - a vehicle has at most one group;
  - a group's seats have distinct users and pickup orders;
  - a group has at most one driver, and that driver holds a licence;
  - no group has more seats than its vehicle's capacity;
  - a user has at most one membership row.

Numeric request fields are `int`. An absent or non-numeric field reads as 0, as
the backend's falsy checks treat it. An absent string is the empty string. The
clock is a `now: nat` parameter, and fresh ids are one more than the largest id
in the table.

## Model

| member | source | states |
|---|---|---|
| Directory.FindUser | backend/src/models/user.model.js:11-17 | none exactly when no user has the id; otherwise a user on record with that id |
| Directory.FindUserByEmail | backend/src/models/user.model.js:3-9 | none exactly when no user has the e-mail; otherwise a user on record with that e-mail |
| Directory.CreateUser | backend/src/models/user.model.js:19-26 | a duplicate exactly when the e-mail is on record; otherwise exactly one user is appended, with the given fields, under an id no user had |
| Directory.FindCompany | backend/src/models/company.model.js:12-21 | none exactly when no company has the id; otherwise a company on record with that id |
| Directory.CreateCompany | backend/src/models/company.model.js:3-10 | a duplicate exactly when the name is taken; otherwise exactly one company is appended under a fresh id |
| Directory.CreateLocation | backend/src/models/location.model.js:3-11 | exactly one location is appended, with the given address, under an id no location had |
| Directory.FindLocation | backend/src/models/location.model.js:13-22 | none exactly when no location has the id; otherwise the location on record with that id |
| Directory.FindUserAppend | backend/src/models/user.model.js:11-17 | adding users never changes which user an existing id resolves to |
| Vehicles.FindById | backend/src/models/vehicle.model.js:23-32 | none exactly when no vehicle has the id; otherwise a vehicle on record with that id |
| Vehicles.CreateVehicle | backend/src/models/vehicle.model.js:3-10 | a duplicate exactly when the plate is taken; otherwise one vehicle with company, name, plate and capacity unchanged, under a fresh id that then finds it |
| Vehicles.ListByCompanyId | backend/src/models/vehicle.model.js:12-21 | exactly the company's vehicles, each as often as stored, newest id first |
| Vehicles.FindByIdAppend | backend/src/models/vehicle.model.js:23-32 | adding vehicles never changes which vehicle an existing id resolves to |
| RouteGroups.FindById | backend/src/models/route_group.model.js:25-34 | none exactly when no group has the id; otherwise a group on record with that id |
| RouteGroups.CreateRouteGroup | backend/src/models/route_group.model.js:3-10 | a duplicate exactly when the vehicle already has a group; otherwise one group with company, vehicle, name and flag stored and no location, under a fresh id |
| RouteGroups.CreateRouteGroupDefaults | backend/src/models/route_group.model.js:3-7 | a group created without a flag is active and has no location |
| RouteGroups.ListByCompanyId | backend/src/models/route_group.model.js:12-23 | exactly the company's groups, each as often as stored, newest id first |
| RouteGroups.FindByIdAppend | backend/src/models/route_group.model.js:25-34 | adding groups never changes which group an existing id resolves to |
| CompanyLocations.AddCompanyLocation | backend/src/models/company_locations.model.js:3-9 | exactly the (company, location) link is appended, keeping the old ones, so the two are linked afterwards |
| CompanyLocations.IsCompanyLocation | backend/src/models/company_locations.model.js:23-32 | true exactly when the (company, location) link exists |
| CompanyLocations.OtherCompanysLocation | backend/src/models/company_locations.model.js:23-32 | a location linked only to other companies is not this company's |
| CompanyLocations.ListLocationsByCompanyId | backend/src/models/company_locations.model.js:11-21 | exactly the company's links, each as often as stored, by location id ascending |
| CompanyMembers.CreateMembership | backend/src/models/company_members.model.js:3-12 | exactly one row is appended with the given company, user, role, status, request time and approval time |
| CompanyMembers.CreateMembershipDefaults | backend/src/models/company_members.model.js:3-12 | with the defaults, the row is an EMPLOYEE, PENDING and not approved |
| CompanyMembers.FindMembership | backend/src/models/company_members.model.js:14-23 | none exactly when the pair has no row; otherwise a row of that company and user |
| CompanyMembers.FindByUserId | backend/src/models/company_members.model.js:25-35 | none exactly when the user has no row; otherwise a row of the user whose request time no other row of the user exceeds |
| CompanyMembers.FindByUserIdIgnoresOlder | backend/src/models/company_members.model.js:25-35 | a row requested before the current one never becomes current |
| CompanyMembers.FindByUserIdOnlyRow | backend/src/models/company_members.model.js:25-35 | a row requested no earlier than every row of the user becomes current, unless an equal-time row came first |
| CompanyMembers.ListPending | backend/src/models/company_members.model.js:37-48 | exactly the company's PENDING rows, each as often as stored, by request time ascending |
| CompanyMembers.WithStatus | backend/src/models/company_members.model.js:50-68 | exactly the company's rows with that status, each as often as stored, by request time ascending |
| CompanyMembers.ListAllByCompany | backend/src/models/company_members.model.js:50-68 | exactly the company's rows, each as often as stored, PENDING before APPROVED before REJECTED, then by request time |
| CompanyMembers.ApproveMembership | backend/src/models/company_members.model.js:70-79 | only the pair's PENDING rows change, to APPROVED with the approval time; the returned count, like `affectedRows`, is the number of the pair's PENDING rows before the update; no pending row of the pair remains |
| CompanyMembers.RejectMembership | backend/src/models/company_members.model.js:81-90 | only the pair's PENDING rows change, to REJECTED with no approval time; APPROVED and REJECTED rows are untouched; the returned count, like `affectedRows`, is the number of the pair's PENDING rows before the update |
| CompanyMembers.ApproveNotIdempotent | backend/src/models/company_members.model.js:70-79 | a second approval of the same pair affects no row |
| CompanyMembers.RejectNotIdempotent | backend/src/models/company_members.model.js:70-90 | a second rejection affects no row, and neither does approving a rejected request |
| CompanyMembers.SetRole | backend/src/models/company_members.model.js:92-100 | the role changes on the pair's APPROVED rows only, every other row is kept; the returned count, like `affectedRows`, is the number of the pair's APPROVED rows |
| GroupMembers.RowsOf | backend/src/models/group_member.model.js:24-32 | a seat is listed exactly when it is stored and is in the group |
| GroupMembers.AddMember | backend/src/models/group_member.model.js:3-9 | a duplicate exactly when the group already has the user or the pickup order; otherwise exactly one seat with the given fields, not a driver unless stated |
| GroupMembers.UserMayJoinTwoGroups | backend/src/models/group_member.model.js:3-9 | a user seated in one group can still be seated in another |
| GroupMembers.ListMembers | backend/src/models/group_member.model.js:11-22 | exactly the group's seats, each as often as stored, by pickup order ascending |
| GroupMembers.CountMembers | backend/src/models/group_member.model.js:24-32 | zero exactly when the group has no seat, and never more than the table's rows |
| GroupMembers.CountAfterAdd | backend/src/models/group_member.model.js:24-32 | a new seat raises its own group's count by one and no other group's |
| GroupMembers.ClearDriver | backend/src/models/group_member.model.js:34-41 | every seat of the group loses its driver flag, keeping group, user and pickup order; other groups' seats are untouched |
| GroupMembers.CountAfterClear | backend/src/models/group_member.model.js:34-41 | clearing driver flags changes no group's count |
| GroupMembers.SetDriver | backend/src/models/group_member.model.js:43-50 | only the (group, user) seat gains the flag; every other seat, other drivers included, is unchanged |
| GroupMembers.SetDriverKeepsOldDriver | backend/src/models/group_member.model.js:43-50 | setting a driver in a group that has one leaves two drivers in the group |
| GroupMembers.ClearThenSetDriver | backend/src/models/group_member.model.js:34-50 | clearing the group's flags first leaves the (group, user) seat as the group's only driver |
| GroupMembers.RemoveMember | backend/src/models/group_member.model.js:52-59 | exactly the (group, user) seats go, every other row stays with its multiplicity and in storage order, and the count says how many; zero exactly when there was none |
| GroupMembers.RemoveMemberSplits | backend/src/models/group_member.model.js:52-59 | the delete works row by row: deleting from two tables end to end is deleting from each, and one row goes exactly when it is the seat |
| GroupMembers.RemoveSeatInPlace | backend/src/models/group_member.model.js:52-59 | under the unique (group, user) key, deleting the seat at a position leaves all other rows in place, and reports one row |
| GroupMembers.RemoveAtMostOne | backend/src/models/group_member.model.js:52-59 | under the unique (group, user) key at most one seat goes |
| GroupMembers.CountAfterRemove | backend/src/models/group_member.model.js:52-59 | deleting seats never raises a group's count |
| GroupMembers.PlanOf | backend/src/models/group_member.model.js:61-86 | the plan is the seat's own group and that group's own vehicle, both on record; the LEFT JOIN gives no location for a group without one, and a location given is on record under the group's location id |
| GroupMembers.FindUserGroupPlan | backend/src/models/group_member.model.js:61-86 | none exactly when the user has no seat whose group and vehicle exist; otherwise the plan of such a seat |
| CompanyService.LeadingSpace | backend/src/services/company.service.js:6 | the length of the longest prefix of white space |
| CompanyService.TrailingStart | backend/src/services/company.service.js:6 | where the longest suffix of white space begins |
| CompanyService.Trim | backend/src/services/company.service.js:6 | the result is a slice of the input with only white space on either side of it, and it neither starts nor ends with white space |
| CompanyService.TrimIdempotent | backend/src/services/company.service.js:6 | trimming twice is trimming once |
| CompanyService.Utf16Length | backend/src/services/company.service.js:7 | a string's JavaScript length is between its code-point count and twice that: exactly the count when every character is in the Basic Multilingual Plane, exactly twice it when none is |
| CompanyService.SearchCompanies | backend/src/services/company.service.js:5-12 | BadRequest "Company name too short." exactly when the trimmed query is shorter than two UTF-16 units; otherwise the trimmed query, which starts with a non-space |
| CompanyService.AstralCharacterPasses | backend/src/services/company.service.js:6-7 | one character outside the Basic Multilingual Plane already passes the guard |
| CompanyService.RequestJoinCompany | backend/src/services/company.service.js:15-53 | Conflict exactly when the user has any row, REJECTED included; its message tells a pending request to this company from another row for it, and both from a row for another company; NotFound, with "Company not found", exactly when there is no row and no company; success adds exactly one PENDING employee row with no approval time; failures change nothing |
| CompanyService.RejectedCannotRequestAgain | backend/src/services/company.service.js:17-33 | a user with a REJECTED row can never request again, whatever the company, and nothing changes |
| CompanyService.RequestBecomesCurrent | backend/src/services/company.service.js:43-52 | after a successful request, the user's current membership is that request |
| CompanyService.GetMyMembership | backend/src/services/company.service.js:56-59 | none exactly when the user has no row; otherwise the user's latest-requested row |
| AdminService.ListPendingRequests | backend/src/services/admin.service.js:4-6 | exactly the company's PENDING rows, each as often as stored, by request time ascending |
| AdminService.ApproveRequest | backend/src/services/admin.service.js:9-16 | NotFound exactly when the pair has no PENDING row, changing nothing; otherwise only the pair's pending rows become APPROVED, stamped with the time, and none stays pending |
| AdminService.RejectRequest | backend/src/services/admin.service.js:19-26 | NotFound exactly when the pair has no PENDING row, changing nothing; otherwise only the pair's pending rows become REJECTED without approval time |
| AdminService.SecondDecisionFails | backend/src/services/admin.service.js:9-26 | a second approval, an approval after a rejection, and a rejection after an approval each fail with NotFound and change nothing |
| AdminGate.AdminRequired | backend/src/middlewares/admin.middleware.js:3-21 | Forbidden "Not a company member" when the user has no row; otherwise Forbidden "Admin access required" unless the current row is an APPROVED ADMIN one, and then let through with that row's company |
| AdminGate.SoleAdminRowAllowed | backend/src/middlewares/admin.middleware.js:16-17 | a user whose only row is an approved ADMIN one is let through, for that row's company |
| AdminGate.OlderRowsIgnored | backend/src/middlewares/admin.middleware.js:7 | a row requested before the current one never changes the decision |
| AdminGate.NewerNonAdminRowDenies | backend/src/middlewares/admin.middleware.js:12-14 | a newer row that is not an approved ADMIN one shuts the user out |
| TransportService.CreateVehicle | backend/src/services/transport.service.js:11-39 | BadRequest for a missing name or plate, and only then for a capacity that is not positive; Conflict for a taken plate; success exactly otherwise, adding one vehicle with the given fields under a fresh id it returns; failures change nothing |
| TransportService.ListVehicles | backend/src/services/transport.service.js:41-43 | exactly the company's vehicles, each as often as stored, newest first |
| TransportService.CreateRouteGroup | backend/src/services/transport.service.js:46-87 | in order: a missing field is BadRequest, a vehicle not the company's is NotFound, an unlinked location is Conflict, a grouped vehicle is Conflict; success exactly otherwise, adding one active group without location; failures change nothing |
| TransportService.CreatedGroupHasNoLocation | backend/src/services/transport.service.js:71-78 | a created group is found by its id and stores no location, although the location was checked |
| TransportService.ListRouteGroups | backend/src/services/transport.service.js:89-91 | exactly the company's groups, each as often as stored, newest first |
| TransportService.GroupVehicle | backend/src/services/transport.service.js:116-121 | a found vehicle is on record and is the group's vehicle |
| TransportService.AddMemberToGroup | backend/src/services/transport.service.js:94-166 | the first failing check decides: bad input BadRequest, group not the company's NotFound, user not an APPROVED member Conflict, vehicle missing NotFound, group full Conflict, unlicensed driver Conflict, colliding seat Conflict; every failure rolls back; success raises the group's count by one and keeps it within capacity |
| TransportService.SeatedStaged | backend/src/services/transport.service.js:145-152 | clearing the group's drivers before the insert changes neither the collision nor any count but the group's, which grows by one |
| TransportService.NewDriverIsOnlyDriver | backend/src/services/transport.service.js:145-152 | after a driver seat, the new seat is the group's only driver and other groups' seats are unchanged |
| TransportService.SeatedDriverIsOnlyDriver | backend/src/services/transport.service.js:145-152 | clearing then inserting a driver seat leaves it the group's only driver and other groups untouched |
| TransportService.PassengerKeepsDriverFlags | backend/src/services/transport.service.js:145-152 | a passenger seat leaves every existing seat, driver flags included, as it was |
| TransportService.DuplicateDriverSeatRollsBack | backend/src/services/transport.service.js:141-162 | a colliding driver seat is Conflict and the group's driver keeps the flag the cleared step had reset |
| TransportService.ListGroupMembers | backend/src/services/transport.service.js:168-177 | NotFound exactly when the group is not the company's; otherwise exactly the group's seats, each as often as stored, by pickup order |
| TransportService.RemoveMemberFromGroup | backend/src/services/transport.service.js:179-193 | NotFound when the group is not the company's or the seat is absent, changing nothing; otherwise exactly the (group, user) seats go, every other seat stays with its multiplicity and in storage order, and no other table changes |
| TransportService.RemoveDeletesOneSeat | backend/src/services/transport.service.js:179-193 | under the unique (group, user) key, removing an existing seat of a company group succeeds and leaves every other seat where it was |
| AuthService.RegisterEmployee | backend/src/services/auth.service.js:20-49 | Conflict exactly when the e-mail is on record, before any write; otherwise one home location and one user with the applicant's fields under fresh ids, and no membership |
| AuthService.Login | backend/src/services/auth.service.js:127-147 | Unauthorized with one message exactly when the e-mail is unknown or the hasher rejects the password; otherwise the session of that e-mail's user with the user's latest membership, or none |
| AuthService.RegisteredEmployeeCanLogIn | backend/src/services/auth.service.js:20-49 | a freshly registered employee logs in with the registered password and has no membership |
| AuthService.RegisterCompanyAdmin | backend/src/services/auth.service.js:53-125 | Conflict for a used e-mail before any write; Conflict with rollback for a taken company name; otherwise user, company, two locations, their link and one APPROVED ADMIN membership stamped with the time |
| AuthService.OnboardedAdminPassesGate | backend/src/services/auth.service.js:88-98 | the new administrator passes the admin gate, for the new company |
| AuthService.RegisterCompanyAdminAsWritten | backend/src/services/auth.service.js:61-125 | same answers as the transaction, but a rolled-back onboarding still leaves the applicant's user row, pointing at a home location id that no location has right after the rollback |
| AuthService.AsWrittenRollbackLeaksUser | backend/src/services/auth.service.js:69-79 | as written, a taken company name leaves the user behind and every retry fails with "Email already in use" |
| AuthService.RollbackLeavesNothing | backend/src/services/auth.service.js:112-113 | with the rollback covering the user, the same input leaves nothing behind and a retry with a free name succeeds |
| Invariants.FindGroupOfUniqueId | backend/src/models/route_group.model.js:25-34 | with unique group ids, looking a group up by its id finds that group |
| Invariants.SeatedKeepsDistinctSeats | backend/src/services/transport.service.js:155-162 | a seat that collides with none keeps users and pickup orders unique within every group |
| Invariants.SeatedKeepsOneDriver | backend/src/services/transport.service.js:145-152 | clear-then-insert never leaves two drivers in a group |
| Invariants.SeatedKeepsCapacity | backend/src/services/transport.service.js:123-129 | a seat admitted below capacity keeps every group within its vehicle's capacity |
| Invariants.AddMemberPreservesValid | backend/src/services/transport.service.js:94-166 | seat assignment keeps every invariant, on success and on failure |
| Invariants.RemoveMemberPreservesValid | backend/src/services/transport.service.js:179-193 | seat removal keeps every invariant |
| Invariants.CreateVehiclePreservesValid | backend/src/services/transport.service.js:11-39 | vehicle creation keeps every invariant |
| Invariants.CreateRouteGroupPreservesValid | backend/src/services/transport.service.js:46-87 | group creation keeps every invariant; a new group has no seats |
| Invariants.MembershipDecisionsKeepValid | backend/src/services/admin.service.js:9-26 | join requests, approvals and rejections keep the registry, seat and capacity invariants |
| Invariants.RequestJoinPreservesMemberships | backend/src/services/company.service.js:17-52 | a join request by a user on record keeps every row's user on record and at most one row per user |
| Invariants.DecisionsPreserveMemberships | backend/src/services/admin.service.js:9-26 | approvals and rejections keep every row's user on record and at most one row per user |
| Invariants.CurrentIsOnlyRow | backend/src/models/company_members.model.js:25-35 | with one row per user, a user's current membership is that row |
| Invariants.RegisterEmployeePreservesValid | backend/src/services/auth.service.js:20-49 | employee registration keeps every invariant |
| Invariants.RegisterCompanyAdminPreservesValid | backend/src/services/auth.service.js:53-125 | company-admin onboarding keeps every invariant |

## Left out

- Storage I/O, connection handling and the SQL text: tables are sequences of rows and each query is a function over them.
- Concurrency and isolation. In particular, the race between counting a group's seats and inserting a seat is not modelled, because every operation is sequential.
- Password hashing and token signing are foreign libraries. Registration receives the digest, and login receives the hasher's verdict as a `verify` parameter. A token is represented by its subject.
- The name search of `searchCompanies`, a `LIKE` match under the database's collation with a row limit. Only the length guard and the trimmed term are modelled.
- Column projections, and the joins with `users` in the pending list, the company listing and the group member listing. The listings return whole rows, so a row whose user is missing is kept. For the pending list and the company listing, `AuthService.MembersHaveUsers` states when the join would drop nothing. Nothing in the model states it for the group member listing: no invariant says that a seat's user is on record, so a seat whose user is missing is listed, where the query drops it.
- RouteGroups.ListByCompanyId: the join with `vehicles` (backend/src/models/route_group.model.js:17) is left out, so a group whose vehicle is missing is kept where the query drops it. `Invariants.RegistryValid` states that every group's vehicle is on record, and then the join drops nothing.
- CompanyLocations.ListLocationsByCompanyId: the join with `locations` (backend/src/models/company_locations.model.js:15) is left out. The model returns the company's link rows ordered by location id, where the query returns the linked location rows ordered by the same id, and drops a link whose location is missing.
- Directory.FindUserByEmail: e-mails compare exactly. The database's collation, which may ignore case, is not modelled: a binary collation is assumed.
- Directory.CreateUser: the e-mail key compares exactly, under the same binary-collation assumption.
- Directory.CreateCompany: the company-name key compares exactly, under the same assumption.
- Vehicles.CreateVehicle: the plate key compares exactly, under the same assumption.
- TransportService.CreateVehicle: a plate differing from a stored one only in letter case is accepted, under the same assumption.
- AuthService.Login: an e-mail differing from the stored one only in letter case is unknown, under the same assumption.
- AuthService.RegisterEmployee: the e-mail check compares exactly, under the same assumption.
- AuthService.RegisterCompanyAdmin: the e-mail check and the company-name key compare exactly, under the same assumption.
- Fractional and non-numeric inputs: identifiers and pickup orders are integers, and absent, non-numeric and zero inputs all read as 0.
- `backend/src/services/transport.facade.js` only delegates, and `group_member.service` is not part of this model.
- Controllers, routes and the admin controller's handlers that have no service counterpart: these are HTTP plumbing.
- A storage error other than a duplicate key, which the services rethrow: the model has no such errors.
- AuthService.RegisterEmployee: the duplicate-key branch after the e-mail check cannot be reached sequentially, so its non-atomic write is kept but never happens.
- AuthService.Login: the separate reload of the user by id after the e-mail lookup is the same user row here. Ids are not assumed unique, so the contract only says the session's user is on record with the subject's id.
- CompanyMembers.FindByUserId: `ORDER BY requested_at DESC LIMIT 1` leaves rows with equal request times in no defined order. The model picks the first such row in storage order, and `FindByUserIdOnlyRow` states that choice; the program promises only some latest row, which the function's other ensures state.
- Tables.NextId: a fresh id is one more than the largest id now in the table, so an id whose insert was rolled back is handed out again. InnoDB's auto-increment counter does not roll back and never reissues it. This matters for AuthService.RegisterCompanyAdminAsWritten: its leaked user's home location id stays dangling in the program, but in the model a later insert into `locations`, such as the next employee registration, takes that id, and the leaked user's pointer then resolves to that stranger's address. The model's "home location gone" holds only until the next location insert. Per-table counters that survive a rollback are not modelled.
- Timestamps are a logical clock `now`. The membership row and its approval time in company-admin onboarding share one time.
- TransportService.AddMemberToGroup: the controller's `Number(...)` coercion of group, user and pickup order (backend/src/controllers/transport.controller.js:64-71) is assumed done before the call. The service's own coercion of company ids and capacity is the identity on integers.
- The `is_driver` flag is modelled as a boolean, so the model's `setDriver` and `addMember` need no normalisation.

## Findings

| source | as written | input that shows it | evidently intended | confidence | as-written member | corrected member |
|---|---|---|---|---|---|---|
| backend/src/services/auth.service.js:69-79 with backend/src/models/user.model.js:19-26 | company-admin onboarding passes the transaction's connection to `createUser`, but `createUser` takes no connection and writes through the pool, so the user row commits on its own | a new e-mail together with a company name that is already taken: the company insert fails, the transaction rolls back, the user row stays, pointing at a home location that was rolled back, and any retry reports "Email already in use" | the rollback removes everything onboarding wrote, the user included | not executed; assumes the user insert is not held up by a foreign key on the uncommitted location | AuthService.RegisterCompanyAdminAsWritten, AuthService.AsWrittenRollbackLeaksUser | AuthService.RegisterCompanyAdmin, AuthService.RollbackLeavesNothing |

=== FILE: admin_gate.dfy ===
/** The admin gate in front of every admin and transport route: it lets a user
    through only when the user's current membership is an approved ADMIN one, and
    hands the routes the company of that membership. */
module AdminGate {
  import opened Outcome
  import opened Schema
  import CompanyMembers

  const NotAMember := "Not a company member"
  const AdminOnly := "Admin access required"

  /** The decision for the authenticated `userId`: the company the routes act on, or
      a Forbidden error. */
  function AdminRequired(members: seq<Membership>, userId: int): (r: Result<int>)
    ensures CompanyMembers.FindByUserId(members, userId).None? ==> r == Failure(Error(Forbidden, NotAMember))
    ensures r.Failure? ==> r.error.kind == Forbidden
    ensures CompanyMembers.FindByUserId(members, userId).Some? && r.Failure? ==> r == Failure(Error(Forbidden, AdminOnly))
    ensures r.Success? <==>
      exists i :: 0 <= i < |members| && members[i].userId == userId
        && members[i].role == Admin && members[i].status == Approved
        && members[i] == CompanyMembers.FindByUserId(members, userId).value
    ensures r.Success? ==> r.value == CompanyMembers.FindByUserId(members, userId).value.companyId
  {
    match CompanyMembers.FindByUserId(members, userId)
    case None => Failure(Error(Forbidden, NotAMember))
    case Some(m) =>
      if m.status != Approved || m.role != Admin then Failure(Error(Forbidden, AdminOnly))
      else Success(m.companyId)
  }

  /** A user whose only row is an approved ADMIN membership is let through, for that company. */
  lemma SoleAdminRowAllowed(members: seq<Membership>, m: Membership)
    requires forall i :: 0 <= i < |members| ==> members[i].userId != m.userId
    requires m.role == Admin && m.status == Approved
    ensures AdminRequired(members + [m], m.userId) == Success(m.companyId)
  {
    CompanyMembers.FindByUserIdOnlyRow(members, m);
  }

  /** The decision depends on the current row only: a row requested earlier than the
      current one never changes it, whatever its company, role or status. */
  lemma OlderRowsIgnored(members: seq<Membership>, older: Membership)
    requires CompanyMembers.FindByUserId(members, older.userId).Some?
    requires older.requestedAt < CompanyMembers.FindByUserId(members, older.userId).value.requestedAt
    ensures AdminRequired(members + [older], older.userId) == AdminRequired(members, older.userId)
  {
    CompanyMembers.FindByUserIdIgnoresOlder(members, older);
  }

  /** A newer non-admin row (a later join request, for instance) shuts an admin out. */
  lemma NewerNonAdminRowDenies(members: seq<Membership>, newer: Membership)
    requires CompanyMembers.FindByUserId(members, newer.userId).Some? ==>
      CompanyMembers.FindByUserId(members, newer.userId).value.requestedAt < newer.requestedAt
    requires newer.role != Admin || newer.status != Approved
    ensures AdminRequired(members + [newer], newer.userId) == Failure(Error(Forbidden, AdminOnly))
  {
    CompanyMembers.FindByUserIdOnlyRow(members, newer);
    assert newer in members + [newer];
  }
}

=== FILE: admin_service.dfy ===
/** The company admin's handling of join requests. The company is always the one
    the admin gate derived from the admin's own membership. */
module AdminService {
  import opened Outcome
  import opened Schema
  import CompanyMembers

  const NotPending := "Request not found or already processed"

  /** Whether the user has a PENDING request to the company. */
  predicate HasPendingRequest(db: Db, companyId: int, userId: int) {
    exists i :: 0 <= i < |db.members| && CompanyMembers.IsPendingRequest(db.members[i], companyId, userId)
  }

  /** The company's pending requests, oldest first. */
  function ListPendingRequests(db: Db, companyId: int): (r: seq<Membership>)
    ensures forall i :: 0 <= i < |r| ==> r[i].companyId == companyId && r[i].status == Pending
    ensures forall m :: m in r <==> m in db.members && m.companyId == companyId && m.status == Pending
    ensures forall m :: multiset(r)[m] == if m.companyId == companyId && m.status == Pending then multiset(db.members)[m] else 0
    ensures forall i, j :: 0 <= i < j < |r| ==> r[i].requestedAt <= r[j].requestedAt
  {
    var r := CompanyMembers.ListPending(db.members, companyId);
    assert forall m :: m in r <==> m in multiset(r);
    r
  }

  /** Approves the user's pending request to the company, stamping `now`. Without a
      pending request (none at all, or one already approved or rejected) it is
      NotFound and nothing changes. */
  function ApproveRequest(db: Db, companyId: int, userId: int, now: nat): (r: Step<()>)
    ensures Atomic(db, r)
    ensures r.out.Failure? <==> !HasPendingRequest(db, companyId, userId)
    ensures r.out.Failure? ==> r.out.error == Error(NotFound, NotPending)
    ensures r.out.Success? ==>
      && r.db == db.(members := r.db.members)
      && |r.db.members| == |db.members|
      && (forall i :: 0 <= i < |db.members| ==>
            if CompanyMembers.IsPendingRequest(db.members[i], companyId, userId)
            then r.db.members[i] == db.members[i].(status := Approved, approvedAt := Some(now))
            else r.db.members[i] == db.members[i])
      && !HasPendingRequest(r.db, companyId, userId)
  {
    var (rows, affected) := CompanyMembers.ApproveMembership(db.members, companyId, userId, now);
    if affected == 0 then Reject(db, NotFound, NotPending)
    else Step(db.(members := rows), Success(()))
  }

  /** Rejects the user's pending request to the company and clears its approval time.
      Without a pending request it is NotFound and nothing changes. */
  function RejectRequest(db: Db, companyId: int, userId: int): (r: Step<()>)
    ensures Atomic(db, r)
    ensures r.out.Failure? <==> !HasPendingRequest(db, companyId, userId)
    ensures r.out.Failure? ==> r.out.error == Error(NotFound, NotPending)
    ensures r.out.Success? ==>
      && r.db == db.(members := r.db.members)
      && |r.db.members| == |db.members|
      && (forall i :: 0 <= i < |db.members| ==>
            if CompanyMembers.IsPendingRequest(db.members[i], companyId, userId)
            then r.db.members[i] == db.members[i].(status := Rejected, approvedAt := None)
            else r.db.members[i] == db.members[i])
      && !HasPendingRequest(r.db, companyId, userId)
  {
    var (rows, affected) := CompanyMembers.RejectMembership(db.members, companyId, userId);
    if affected == 0 then Reject(db, NotFound, NotPending)
    else Step(db.(members := rows), Success(()))
  }

  /** Approving twice is not idempotent: the second call reports NotFound and changes
      nothing; so does approving a request that was rejected. */
  lemma SecondDecisionFails(db: Db, companyId: int, userId: int, now: nat, later: nat)
    ensures var first := ApproveRequest(db, companyId, userId, now).db;
      ApproveRequest(first, companyId, userId, later) == Step(first, Failure(Error(NotFound, NotPending)))
    ensures var first := RejectRequest(db, companyId, userId).db;
      ApproveRequest(first, companyId, userId, later) == Step(first, Failure(Error(NotFound, NotPending)))
    ensures var first := ApproveRequest(db, companyId, userId, now).db;
      RejectRequest(first, companyId, userId) == Step(first, Failure(Error(NotFound, NotPending)))
  {
  }
}

=== FILE: auth_service.dfy ===
/** Registration and login. The password hasher and the token signer are foreign
    code: registration receives the password's digest ready-made, login receives the
    hasher's verdict as a function `verify(password, digest)`, and a token is
    represented by its subject, the user id it is signed for. */
module AuthService {
  import opened Outcome
  import opened Schema
  import opened Tables
  import CompanyMembers
  import CompanyLocations
  import Directory
  import AdminGate

  const EmailInUse := "Email already in use"
  const DuplicateValue := "Duplicate value (email or company name already exists)"
  const BadCredentials := "Invalid email or password"
  /** The storage error a duplicate insert raises when no handler maps it. */
  const DuplicateEntryError := "ER_DUP_ENTRY"

  /** What a registration form carries, with the password already digested. */
  datatype Applicant = Applicant(name: string, surname: string, email: string, digest: string,
                                 hasLicence: bool, home: Address)

  /** What registration and login return: the token's subject, the user row and the
      user's current membership, if any. */
  datatype Session = Session(subject: int, user: User, membership: Option<Membership>)

  predicate EmailTaken(db: Db, email: string) {
    Directory.FindUserByEmail(db.users, email).Some?
  }

  predicate CompanyNameTaken(db: Db, name: string) {
    exists i :: 0 <= i < |db.companies| && db.companies[i].name == name
  }

  /** Every membership row belongs to a user on record. */
  ghost predicate MembersHaveUsers(db: Db) {
    forall i :: 0 <= i < |db.members| ==> Directory.FindUser(db.users, db.members[i].userId).Some?
  }

  /** The user row registration writes for an applicant. */
  function NewUser(a: Applicant, id: int, homeId: int): User {
    User(id, a.name, a.surname, a.email, a.digest, homeId, a.hasLicence)
  }

  // ----------------------------------------------------------------- employee

  /** Registers an employee: an e-mail already on record is Conflict before any write;
      otherwise the home location and then the user are inserted, each under a fresh
      id. The new user has no membership. */
  function RegisterEmployee(db: Db, a: Applicant): (r: Step<Session>)
    ensures Atomic(db, r)
    ensures r.out.Failure? <==> EmailTaken(db, a.email)
    ensures r.out.Failure? ==> r.out.error == Error(Conflict, EmailInUse)
    ensures r.out.Success? ==>
      var s := r.out.value;
      && s.user == NewUser(a, s.subject, s.user.locationId)
      && r.db == db.(locations := db.locations + [Location(s.user.locationId, a.home)], users := db.users + [s.user])
      && Directory.FindUser(db.users, s.subject).None?
      && Directory.FindLocation(db.locations, s.user.locationId).None?
      && s.membership.None?
  {
    if EmailTaken(db, a.email) then Reject(db, Conflict, EmailInUse)
    else
      var (locations, homeId) := Directory.CreateLocation(db.locations, a.home);
      match Directory.CreateUser(db.users, a.name, a.surname, a.email, a.digest, homeId, a.hasLicence)
      case DuplicateEntry =>
        // Not a transaction: the location stays and the storage error escapes unmapped.
        Step(db.(locations := locations), Failure(Error(Internal, DuplicateEntryError)))
      case Written((users, id)) =>
        Step(db.(locations := locations, users := users), Success(Session(id, NewUser(a, id, homeId), None)))
  }

  // -------------------------------------------------------------------- login

  /** Logs in: an unknown e-mail and a password the hasher rejects both give the same
      Unauthorized error, so the answer does not tell which of the two failed. On
      success the session is for the user with that e-mail and carries the user's
      current membership. */
  function Login(db: Db, email: string, password: string, verify: (string, string) -> bool): (r: Result<Session>)
    ensures r.Failure? <==>
      || !EmailTaken(db, email)
      || !verify(password, Directory.FindUserByEmail(db.users, email).value.passwordDigest)
    ensures r.Failure? ==> r.error == Error(Unauthorized, BadCredentials)
    ensures r.Success? ==>
      && r.value.subject == Directory.FindUserByEmail(db.users, email).value.id
      && r.value.user in db.users && r.value.user.id == r.value.subject
      && (r.value.membership.None? <==> forall i :: 0 <= i < |db.members| ==> db.members[i].userId != r.value.subject)
      && (r.value.membership.Some? ==>
            && r.value.membership.value in db.members && r.value.membership.value.userId == r.value.subject
            && forall i :: 0 <= i < |db.members| && db.members[i].userId == r.value.subject ==>
                 db.members[i].requestedAt <= r.value.membership.value.requestedAt)
  {
    match Directory.FindUserByEmail(db.users, email)
    case None => Failure(Error(Unauthorized, BadCredentials))
    case Some(found) =>
      if !verify(password, found.passwordDigest) then Failure(Error(Unauthorized, BadCredentials))
      else
        assert found in db.users;
        var user := Directory.FindUser(db.users, found.id).value;
        Success(Session(found.id, user, CompanyMembers.FindByUserId(db.members, found.id)))
  }

  /** A freshly registered employee logs in with the password whose digest was
      registered, and has no membership yet. */
  lemma RegisteredEmployeeCanLogIn(db: Db, a: Applicant, password: string, verify: (string, string) -> bool)
    requires MembersHaveUsers(db)
    requires RegisterEmployee(db, a).out.Success?
    requires verify(password, a.digest)
    ensures var s := RegisterEmployee(db, a).out.value;
      Login(RegisterEmployee(db, a).db, a.email, password, verify) == Success(s)
  {
    var r := RegisterEmployee(db, a);
    var s := r.out.value;
    FindAppend(db.users, [s.user], (u: User) => u.email == a.email);
    FindAppend(db.users, [s.user], (u: User) => u.id == s.subject);
    assert forall i :: 0 <= i < |db.members| ==> db.members[i].userId != s.subject;
  }

  // ------------------------------------------------------------ company admin

  /** The store after a successful company-admin registration, given the fresh ids. */
  function Onboarded(db: Db, a: Applicant, userId: int, homeId: int, companyId: int, companyName: string,
                     siteId: int, site: Address, now: nat): Db
  {
    db.(users := db.users + [NewUser(a, userId, homeId)],
        companies := db.companies + [Company(companyId, companyName)],
        locations := db.locations + [Location(homeId, a.home), Location(siteId, site)],
        companyLocations := CompanyLocations.AddCompanyLocation(db.companyLocations, companyId, siteId),
        members := CompanyMembers.CreateMembership(db.members, companyId, userId, now, Admin, Approved, Some(now)))
  }

  /** Registers a company together with its first administrator, as one transaction.
      An e-mail already on record is Conflict before the transaction starts. Inside
      it: the admin's home location, the admin user, the company, the company's
      headquarters location, their link and an approved ADMIN membership stamped
      `now`. A duplicate key (a company name already taken) is Conflict and the whole
      transaction is rolled back. */
  function RegisterCompanyAdmin(db: Db, a: Applicant, companyName: string, site: Address, now: nat)
    : (r: Step<Session>)
    ensures Atomic(db, r)
    ensures EmailTaken(db, a.email) ==> r.out == Failure(Error(Conflict, EmailInUse))
    ensures !EmailTaken(db, a.email) && CompanyNameTaken(db, companyName) ==>
      r.out == Failure(Error(Conflict, DuplicateValue))
    ensures r.out.Success? <==> !EmailTaken(db, a.email) && !CompanyNameTaken(db, companyName)
    ensures r.out.Success? ==>
      var s := r.out.value;
      && s.membership.Some?
      && s.membership.value == Membership(s.membership.value.companyId, s.subject, Admin, Approved, now, Some(now))
      && s.user == NewUser(a, s.subject, s.user.locationId)
      && Directory.FindUser(db.users, s.subject).None?
      && Directory.FindCompany(db.companies, s.membership.value.companyId).None?
      && |r.db.locations| == |db.locations| + 2
      && r.db == Onboarded(db, a, s.subject, s.user.locationId, s.membership.value.companyId, companyName,
                           r.db.locations[|db.locations| + 1].id, site, now)
      && r.db.locations[|db.locations| + 1].id != s.user.locationId
      && (forall i :: 0 <= i < |db.locations| ==>
            db.locations[i].id != s.user.locationId && db.locations[i].id != r.db.locations[|db.locations| + 1].id)
  {
    if EmailTaken(db, a.email) then Reject(db, Conflict, EmailInUse)
    else
      var (locations, homeId) := Directory.CreateLocation(db.locations, a.home);
      match Directory.CreateUser(db.users, a.name, a.surname, a.email, a.digest, homeId, a.hasLicence)
      case DuplicateEntry => Reject(db, Conflict, DuplicateValue)
      case Written((users, userId)) =>
        match Directory.CreateCompany(db.companies, companyName)
        case DuplicateEntry => Reject(db, Conflict, DuplicateValue)
        case Written((companies, companyId)) =>
          var (locations', siteId) := Directory.CreateLocation(locations, site);
          assert locations[|db.locations|].id == homeId;
          assert forall i :: 0 <= i < |db.locations| ==> locations[i] == db.locations[i];
          var membership := Membership(companyId, userId, Admin, Approved, now, Some(now));
          Step(Onboarded(db, a, userId, homeId, companyId, companyName, siteId, site, now),
               Success(Session(userId, NewUser(a, userId, homeId), Some(membership))))
  }

  /** The new administrator passes the admin gate, for the new company. */
  lemma OnboardedAdminPassesGate(db: Db, a: Applicant, companyName: string, site: Address, now: nat)
    requires MembersHaveUsers(db)
    requires RegisterCompanyAdmin(db, a, companyName, site, now).out.Success?
    ensures var r := RegisterCompanyAdmin(db, a, companyName, site, now);
      AdminGate.AdminRequired(r.db.members, r.out.value.subject) == Success(r.out.value.membership.value.companyId)
  {
    var s := RegisterCompanyAdmin(db, a, companyName, site, now).out.value;
    assert forall i :: 0 <= i < |db.members| ==> db.members[i].userId != s.subject;
    AdminGate.SoleAdminRowAllowed(db.members, s.membership.value);
  }

  /** Company-admin registration as the repository writes it: the user insert does
      not go through the transaction's connection, so it is committed on its own and
      survives the rollback that a taken company name causes. */
  function RegisterCompanyAdminAsWritten(db: Db, a: Applicant, companyName: string, site: Address, now: nat)
    : (r: Step<Session>)
    ensures r.out == RegisterCompanyAdmin(db, a, companyName, site, now).out
    ensures r.out.Success? ==> r.db == RegisterCompanyAdmin(db, a, companyName, site, now).db
    ensures r.out.Failure? && !EmailTaken(db, a.email) ==>
      && |r.db.users| == |db.users| + 1
      && r.db.users == db.users + [NewUser(a, r.db.users[|db.users|].id, r.db.users[|db.users|].locationId)]
      && r.db == db.(users := r.db.users)
      && Directory.FindLocation(db.locations, r.db.users[|db.users|].locationId).None?
  {
    if EmailTaken(db, a.email) then Reject(db, Conflict, EmailInUse)
    else
      var (locations, homeId) := Directory.CreateLocation(db.locations, a.home);
      match Directory.CreateUser(db.users, a.name, a.surname, a.email, a.digest, homeId, a.hasLicence)
      case DuplicateEntry => Reject(db, Conflict, DuplicateValue)
      case Written((users, userId)) =>
        match Directory.CreateCompany(db.companies, companyName)
        case DuplicateEntry => Step(db.(users := users), Failure(Error(Conflict, DuplicateValue)))
        case Written((companies, companyId)) =>
          var (locations', siteId) := Directory.CreateLocation(locations, site);
          var membership := Membership(companyId, userId, Admin, Approved, now, Some(now));
          Step(Onboarded(db, a, userId, homeId, companyId, companyName, siteId, site, now),
               Success(Session(userId, NewUser(a, userId, homeId), Some(membership))))
  }

  /** As written, a taken company name leaves a user behind whose home location was
      rolled back, and the applicant can never register again: the retry, with any
      company name, fails because the e-mail is now in use. */
  lemma AsWrittenRollbackLeaksUser(db: Db, a: Applicant, companyName: string, site: Address, now: nat,
                                   otherName: string, later: nat)
    requires !EmailTaken(db, a.email) && CompanyNameTaken(db, companyName)
    ensures var r := RegisterCompanyAdminAsWritten(db, a, companyName, site, now);
      && r.out.Failure?
      && r.db != db
      && EmailTaken(r.db, a.email)
      && Directory.FindLocation(r.db.locations, r.db.users[|db.users|].locationId).None?
      && RegisterCompanyAdminAsWritten(r.db, a, otherName, site, later).out == Failure(Error(Conflict, EmailInUse))
  {
    var r := RegisterCompanyAdminAsWritten(db, a, companyName, site, now);
    assert |r.db.users| == |db.users| + 1;
    FindAppend(db.users, [r.db.users[|db.users|]], (u: User) => u.email == a.email);
  }

  /** The corrected registration leaves nothing behind on that same input, so the
      applicant can retry with another company name. */
  lemma RollbackLeavesNothing(db: Db, a: Applicant, companyName: string, site: Address, now: nat,
                              otherName: string, later: nat)
    requires !EmailTaken(db, a.email) && CompanyNameTaken(db, companyName) && !CompanyNameTaken(db, otherName)
    ensures RegisterCompanyAdmin(db, a, companyName, site, now).db == db
    ensures RegisterCompanyAdmin(RegisterCompanyAdmin(db, a, companyName, site, now).db, a, otherName, site, later).out.Success?
  {
  }
}

=== FILE: company_locations.dfy ===
/** The `company_locations` link table between companies and their locations. */
module CompanyLocations {
  import opened Schema
  import opened Tables

  function LinkedLocation(l: CompanyLocation): int { l.locationId }

  /** Adds one link from the company to the location. */
  function AddCompanyLocation(links: seq<CompanyLocation>, companyId: int, locationId: int): (r: seq<CompanyLocation>)
    ensures |r| == |links| + 1 && r[..|links|] == links
    ensures r[|links|] == CompanyLocation(companyId, locationId)
    ensures IsCompanyLocation(r, companyId, locationId)
  {
    links + [CompanyLocation(companyId, locationId)]
  }

  /** Whether the location is linked to the company. */
  function IsCompanyLocation(links: seq<CompanyLocation>, companyId: int, locationId: int): (r: bool)
    ensures r <==> CompanyLocation(companyId, locationId) in links
  {
    exists i :: 0 <= i < |links| && links[i].companyId == companyId && links[i].locationId == locationId
  }

  /** A location linked only to other companies is not a location of this one. */
  lemma OtherCompanysLocation(links: seq<CompanyLocation>, companyId: int, locationId: int)
    requires forall i :: 0 <= i < |links| && links[i].locationId == locationId ==> links[i].companyId != companyId
    ensures !IsCompanyLocation(links, companyId, locationId)
  {
  }

  /** The company's links, by location id ascending. */
  function ListLocationsByCompanyId(links: seq<CompanyLocation>, companyId: int): (r: seq<CompanyLocation>)
    ensures forall l :: multiset(r)[l] == if l.companyId == companyId then multiset(links)[l] else 0
    ensures forall i :: 0 <= i < |r| ==> r[i].companyId == companyId
    ensures forall i, j :: 0 <= i < j < |r| ==> r[i].locationId <= r[j].locationId
  {
    var p := (l: CompanyLocation) => l.companyId == companyId;
    var r := SelectSorted(links, p, LinkedLocation);
    SelectedRows(links, p, LinkedLocation, r);
    r
  }
}

=== FILE: company_members.dfy ===
/** The `company_members` table: a user's membership requests and their approval
    state. The table has no unique key, so a user may hold several rows. */
module CompanyMembers {
  import opened Outcome
  import opened Schema
  import opened Tables

  function RequestedAt(m: Membership): int { m.requestedAt }

  /** Inserts a membership row. Omitted arguments take the defaults of the insert:
      an EMPLOYEE with a PENDING request and no approval time. */
  function CreateMembership(rows: seq<Membership>, companyId: int, userId: int, now: nat,
                            role: Role := Employee, status: Status := Pending,
                            approvedAt: Option<nat> := None): (r: seq<Membership>)
    ensures |r| == |rows| + 1 && r[..|rows|] == rows
    ensures r[|rows|].companyId == companyId && r[|rows|].userId == userId
    ensures r[|rows|].role == role && r[|rows|].status == status
    ensures r[|rows|].requestedAt == now && r[|rows|].approvedAt == approvedAt
  {
    rows + [Membership(companyId, userId, role, status, now, approvedAt)]
  }

  /** A request created with the defaults is a pending employee request, not yet approved. */
  lemma CreateMembershipDefaults(rows: seq<Membership>, companyId: int, userId: int, now: nat)
    ensures var m := CreateMembership(rows, companyId, userId, now)[|rows|];
      m.role == Employee && m.status == Pending && m.approvedAt.None?
  {
  }

  /** The first row for the pair (company, user). */
  function FindMembership(rows: seq<Membership>, companyId: int, userId: int): (r: Option<Membership>)
    ensures r.None? <==> forall i :: 0 <= i < |rows| ==> !(rows[i].companyId == companyId && rows[i].userId == userId)
    ensures r.Some? ==> r.value in rows && r.value.companyId == companyId && r.value.userId == userId
  {
    Find(rows, (m: Membership) => m.companyId == companyId && m.userId == userId)
  }

  /** The user's current membership: a row of the user with the latest request time
      (the first such row in storage order when several tie), or none. */
  function FindByUserId(rows: seq<Membership>, userId: int): (r: Option<Membership>)
    ensures r.None? <==> forall i :: 0 <= i < |rows| ==> rows[i].userId != userId
    ensures r.Some? ==> r.value in rows && r.value.userId == userId
    ensures r.Some? ==> forall i :: 0 <= i < |rows| && rows[i].userId == userId ==> rows[i].requestedAt <= r.value.requestedAt
  {
    if rows == [] then None
    else
      var rest := FindByUserId(rows[1..], userId);
      if rows[0].userId != userId then rest
      else if rest.Some? && rest.value.requestedAt > rows[0].requestedAt then rest
      else Some(rows[0])
  }

  /** A row stamped earlier than the user's current one never becomes current. */
  lemma {:induction false} FindByUserIdIgnoresOlder(rows: seq<Membership>, m: Membership)
    requires FindByUserId(rows, m.userId).Some?
    requires m.requestedAt < FindByUserId(rows, m.userId).value.requestedAt
    ensures FindByUserId(rows + [m], m.userId) == FindByUserId(rows, m.userId)
  {
    assert rows != [];
    assert (rows + [m])[1..] == rows[1..] + [m];
    var rest := FindByUserId(rows[1..], m.userId);
    if rest.Some? && m.requestedAt < rest.value.requestedAt {
      FindByUserIdIgnoresOlder(rows[1..], m);
    } else {
      FindByUserIdOnlyRow(rows[1..], m);
    }
  }

  /** When the user has no row of at least `m`'s request time in `rows`, appending `m` makes
      it the user's current row. */
  lemma {:induction false} FindByUserIdOnlyRow(rows: seq<Membership>, m: Membership)
    requires FindByUserId(rows, m.userId).Some? ==> FindByUserId(rows, m.userId).value.requestedAt <= m.requestedAt
    ensures FindByUserId(rows + [m], m.userId).Some?
    ensures FindByUserId(rows, m.userId).Some? && FindByUserId(rows, m.userId).value.requestedAt == m.requestedAt
            ==> FindByUserId(rows + [m], m.userId) == FindByUserId(rows, m.userId)
    ensures FindByUserId(rows, m.userId).None? ==> FindByUserId(rows + [m], m.userId) == Some(m)
  {
    if rows == [] {
      assert rows + [m] == [m];
    } else {
      assert (rows + [m])[1..] == rows[1..] + [m];
      FindByUserIdOnlyRow(rows[1..], m);
    }
  }

  /** Pending rows of a company, in request order. */
  function ListPending(rows: seq<Membership>, companyId: int): (r: seq<Membership>)
    ensures forall i :: 0 <= i < |r| ==> r[i].companyId == companyId && r[i].status == Pending
    ensures forall m :: multiset(r)[m] == if m.companyId == companyId && m.status == Pending then multiset(rows)[m] else 0
    ensures forall i, j :: 0 <= i < j < |r| ==> r[i].requestedAt <= r[j].requestedAt
  {
    WithStatus(rows, companyId, Pending)
  }

  /** Rows of a company with the given status, in request order. */
  function WithStatus(rows: seq<Membership>, companyId: int, status: Status): (r: seq<Membership>)
    ensures forall i :: 0 <= i < |r| ==> r[i].companyId == companyId && r[i].status == status
    ensures forall m :: multiset(r)[m] == if m.companyId == companyId && m.status == status then multiset(rows)[m] else 0
    ensures forall i, j :: 0 <= i < j < |r| ==> r[i].requestedAt <= r[j].requestedAt
  {
    var p := (m: Membership) => m.companyId == companyId && m.status == status;
    var r := SelectSorted(rows, p, RequestedAt);
    SelectedRows(rows, p, RequestedAt, r);
    r
  }

  /** Position of a status in the listing order of `listAllByCompany`. */
  function StatusRank(s: Status): nat {
    match s
    case Pending => 0
    case Approved => 1
    case Rejected => 2
  }

  /** `a` comes no later than `b` in the listing: by status rank, then by request time. */
  predicate ListedBefore(a: Membership, b: Membership) {
    StatusRank(a.status) < StatusRank(b.status)
    || (StatusRank(a.status) == StatusRank(b.status) && a.requestedAt <= b.requestedAt)
  }

  /** Every row of the company: PENDING rows first, then APPROVED, then REJECTED,
      each block in request order. */
  function ListAllByCompany(rows: seq<Membership>, companyId: int): (r: seq<Membership>)
    ensures forall m :: multiset(r)[m] == if m.companyId == companyId then multiset(rows)[m] else 0
    ensures forall i, j :: 0 <= i < j < |r| ==> ListedBefore(r[i], r[j])
  {
    var p := WithStatus(rows, companyId, Pending);
    var a := WithStatus(rows, companyId, Approved);
    var j := WithStatus(rows, companyId, Rejected);
    ConcatCoversCompany(rows, companyId, p, a, j);
    ConcatListedBefore(p, a, j);
    p + a + j
  }

  /** The three status lists together hold each of the company's rows exactly as
      often as the table does: every row has exactly one of the three statuses. */
  lemma ConcatCoversCompany(rows: seq<Membership>, companyId: int, p: seq<Membership>, a: seq<Membership>, j: seq<Membership>)
    requires forall m :: multiset(p)[m] == if m.companyId == companyId && m.status == Pending then multiset(rows)[m] else 0
    requires forall m :: multiset(a)[m] == if m.companyId == companyId && m.status == Approved then multiset(rows)[m] else 0
    requires forall m :: multiset(j)[m] == if m.companyId == companyId && m.status == Rejected then multiset(rows)[m] else 0
    ensures forall m :: multiset(p + a + j)[m] == if m.companyId == companyId then multiset(rows)[m] else 0
  {
    assert multiset(p + a + j) == multiset(p) + multiset(a) + multiset(j);
    forall m
      ensures multiset(p + a + j)[m] == if m.companyId == companyId then multiset(rows)[m] else 0
    {
      var n := if m.companyId == companyId then multiset(rows)[m] else 0;
      assert multiset(p)[m] == if m.status == Pending then n else 0;
      assert multiset(a)[m] == if m.status == Approved then n else 0;
      assert multiset(j)[m] == if m.status == Rejected then n else 0;
    }
  }

  lemma ConcatListedBefore(p: seq<Membership>, a: seq<Membership>, j: seq<Membership>)
    requires forall i :: 0 <= i < |p| ==> p[i].status == Pending
    requires forall i :: 0 <= i < |a| ==> a[i].status == Approved
    requires forall i :: 0 <= i < |j| ==> j[i].status == Rejected
    requires forall i, k :: 0 <= i < k < |p| ==> p[i].requestedAt <= p[k].requestedAt
    requires forall i, k :: 0 <= i < k < |a| ==> a[i].requestedAt <= a[k].requestedAt
    requires forall i, k :: 0 <= i < k < |j| ==> j[i].requestedAt <= j[k].requestedAt
    ensures forall i, k :: 0 <= i < k < |p + a + j| ==> ListedBefore((p + a + j)[i], (p + a + j)[k])
  {
    var s := p + a + j;
    forall i, k | 0 <= i < k < |s|
      ensures ListedBefore(s[i], s[k])
    {
      if k < |p| {
        assert s[i] == p[i] && s[k] == p[k];
      } else if k < |p| + |a| {
        assert s[k] == a[k - |p|];
        if i >= |p| {
          assert s[i] == a[i - |p|];
        }
      } else {
        assert s[k] == j[k - |p| - |a|];
        if i >= |p| + |a| {
          assert s[i] == j[i - |p| - |a|];
        } else if i >= |p| {
          assert s[i] == a[i - |p|];
        }
      }
    }
  }

  /** A PENDING request of the user to the company: what approve and reject act on. */
  predicate IsPendingRequest(m: Membership, companyId: int, userId: int) {
    m.companyId == companyId && m.userId == userId && m.status == Pending
  }

  /** The rows approve and reject act on, as a predicate the row count is taken over. */
  function PendingRequestOf(companyId: int, userId: int): Membership -> bool {
    (m: Membership) => IsPendingRequest(m, companyId, userId)
  }

  /** An APPROVED row of the user in the company: what a role change acts on. */
  predicate IsApprovedRow(m: Membership, companyId: int, userId: int) {
    m.companyId == companyId && m.userId == userId && m.status == Approved
  }

  /** The rows a role change acts on, as a predicate the row count is taken over. */
  function ApprovedRowOf(companyId: int, userId: int): Membership -> bool {
    (m: Membership) => IsApprovedRow(m, companyId, userId)
  }

  /** Approves every PENDING row of the pair, stamping the approval time; returns the
      rows afterwards and the number of rows affected. */
  function ApproveMembership(rows: seq<Membership>, companyId: int, userId: int, now: nat): (r: (seq<Membership>, nat))
    ensures |r.0| == |rows|
    ensures forall i :: 0 <= i < |rows| && !IsPendingRequest(rows[i], companyId, userId) ==> r.0[i] == rows[i]
    ensures forall i :: 0 <= i < |rows| && IsPendingRequest(rows[i], companyId, userId) ==>
      r.0[i] == rows[i].(status := Approved, approvedAt := Some(now))
    ensures r.1 == |Filter(rows, PendingRequestOf(companyId, userId))|
    ensures r.1 == 0 <==> forall i :: 0 <= i < |rows| ==> !IsPendingRequest(rows[i], companyId, userId)
    ensures forall i :: 0 <= i < |rows| ==> !IsPendingRequest(r.0[i], companyId, userId)
  {
    var p := PendingRequestOf(companyId, userId);
    FilterEmpty(rows, p);
    UpdateWhere(rows, p, (m: Membership) => m.(status := Approved, approvedAt := Some(now)))
  }

  /** Rejects every PENDING row of the pair and clears its approval time; returns the
      rows afterwards and the number of rows affected. */
  function RejectMembership(rows: seq<Membership>, companyId: int, userId: int): (r: (seq<Membership>, nat))
    ensures |r.0| == |rows|
    ensures forall i :: 0 <= i < |rows| && !IsPendingRequest(rows[i], companyId, userId) ==> r.0[i] == rows[i]
    ensures forall i :: 0 <= i < |rows| && IsPendingRequest(rows[i], companyId, userId) ==>
      r.0[i] == rows[i].(status := Rejected, approvedAt := None)
    ensures r.1 == |Filter(rows, PendingRequestOf(companyId, userId))|
    ensures r.1 == 0 <==> forall i :: 0 <= i < |rows| ==> !IsPendingRequest(rows[i], companyId, userId)
    ensures forall i :: 0 <= i < |rows| ==> !IsPendingRequest(r.0[i], companyId, userId)
  {
    var p := PendingRequestOf(companyId, userId);
    FilterEmpty(rows, p);
    UpdateWhere(rows, p, (m: Membership) => m.(status := Rejected, approvedAt := None))
  }

  /** A second approval of the same pair affects no row. */
  lemma ApproveNotIdempotent(rows: seq<Membership>, companyId: int, userId: int, now: nat, later: nat)
    ensures ApproveMembership(ApproveMembership(rows, companyId, userId, now).0, companyId, userId, later).1 == 0
  {
  }

  /** A second rejection of the same pair affects no row, and neither does approving
      a rejected request. */
  lemma RejectNotIdempotent(rows: seq<Membership>, companyId: int, userId: int, now: nat)
    ensures RejectMembership(RejectMembership(rows, companyId, userId).0, companyId, userId).1 == 0
    ensures ApproveMembership(RejectMembership(rows, companyId, userId).0, companyId, userId, now).1 == 0
  {
  }

  /** Changes the role of the pair's APPROVED rows only; returns the rows and the number affected. */
  function SetRole(rows: seq<Membership>, companyId: int, userId: int, role: Role): (r: (seq<Membership>, nat))
    ensures |r.0| == |rows|
    ensures forall i :: 0 <= i < |rows| ==>
      if IsApprovedRow(rows[i], companyId, userId)
      then r.0[i] == rows[i].(role := role)
      else r.0[i] == rows[i]
    ensures r.1 == |Filter(rows, ApprovedRowOf(companyId, userId))|
    ensures r.1 == 0 <==> forall i :: 0 <= i < |rows| ==> !IsApprovedRow(rows[i], companyId, userId)
  {
    var p := ApprovedRowOf(companyId, userId);
    FilterEmpty(rows, p);
    UpdateWhere(rows, p, (m: Membership) => m.(role := role))
  }
}

=== FILE: company_service.dfy ===
/** The employee-facing company service: the company search guard, the join request
    (the only way an employee's membership row comes to exist) and the current
    membership read. */
module CompanyService {
  import opened Outcome
  import opened Schema
  import CompanyMembers
  import Directory

  const NameTooShort := "Company name too short."
  const AlreadyRequested := "You already requested to join this company"
  const AlreadyMember := "You are already a member of this company"
  const AlreadyLinked := "You are already linked to a company. Leave it before joining another."
  const CompanyNotFound := "Company not found"

  /** The characters JavaScript's `String.prototype.trim` removes: white space and line
      terminators. */
  predicate IsTrimmable(c: char) {
    var n := c as int;
    n == 0x20 || 0x09 <= n <= 0x0D || n == 0xA0 || n == 0x1680 || 0x2000 <= n <= 0x200A
    || n == 0x2028 || n == 0x2029 || n == 0x202F || n == 0x205F || n == 0x3000 || n == 0xFEFF
  }

  /** How many white-space characters `s` starts with. */
  function LeadingSpace(s: string): (n: nat)
    ensures n <= |s|
    ensures forall i :: 0 <= i < n ==> IsTrimmable(s[i])
    ensures n == |s| || !IsTrimmable(s[n])
  {
    if s != [] && IsTrimmable(s[0]) then
      var n := LeadingSpace(s[1..]);
      assert forall i :: 1 <= i <= n ==> s[i] == s[1..][i - 1];
      1 + n
    else 0
  }

  /** Where the trailing white space of `s` begins. */
  function TrailingStart(s: string): (n: nat)
    ensures n <= |s|
    ensures forall i :: n <= i < |s| ==> IsTrimmable(s[i])
    ensures n == 0 || !IsTrimmable(s[n - 1])
  {
    if s != [] && IsTrimmable(s[|s| - 1]) then TrailingStart(s[..|s| - 1]) else |s|
  }

  /** The string without leading and trailing white space: a contiguous slice of `s`
      starting after its leading white space, whose ends are not white space, with
      only white space cut away on either side. */
  function Trim(s: string): (r: string)
    ensures var a := LeadingSpace(s);
      && a + |r| <= |s| && r == s[a..a + |r|]
      && (forall i :: 0 <= i < a ==> IsTrimmable(s[i]))
      && (forall i :: a + |r| <= i < |s| ==> IsTrimmable(s[i]))
    ensures r == [] || (!IsTrimmable(r[0]) && !IsTrimmable(r[|r| - 1]))
  {
    var a := LeadingSpace(s);
    if a == |s| then []
    else
      var b := TrailingStart(s);
      assert a < b;
      s[a..b]
  }

  /** Trimming twice trims nothing more. */
  lemma TrimIdempotent(s: string)
    ensures Trim(Trim(s)) == Trim(s)
  {
    var r := Trim(s);
    if r != [] {
      assert LeadingSpace(r) == 0;
      assert TrailingStart(r) == |r|;
    }
  }

  /** The length JavaScript reports for a string: UTF-16 code units, so a character
      outside the Basic Multilingual Plane counts twice. */
  function Utf16Length(s: string): (n: nat)
    ensures |s| <= n <= 2 * |s|
    ensures (forall i :: 0 <= i < |s| ==> s[i] as int < 0x10000) ==> n == |s|
    ensures (forall i :: 0 <= i < |s| ==> s[i] as int >= 0x10000) ==> n == 2 * |s|
  {
    if s == [] then 0 else (if s[0] as int >= 0x10000 then 2 else 1) + Utf16Length(s[1..])
  }

  /** The search guard: a query shorter than two UTF-16 code units once trimmed (an
      absent query is the empty one) is refused; otherwise the trimmed query is the
      term handed to the name search. */
  function SearchCompanies(query: string): (r: Result<string>)
    ensures r.Failure? <==> Utf16Length(Trim(query)) < 2
    ensures r.Failure? ==> r.error == Error(BadRequest, NameTooShort)
    ensures r.Success? ==> |r.value| >= 1 && !IsTrimmable(r.value[0]) && r.value == Trim(query)
  {
    if query == [] || Utf16Length(Trim(query)) < 2 then Failure(Error(BadRequest, NameTooShort))
    else Success(Trim(query))
  }

  /** A single astral character (an emoji, say) already passes the guard. */
  lemma AstralCharacterPasses()
    ensures SearchCompanies([0x1F600 as char]).Success?
  {
    var s := [0x1F600 as char];
    assert !IsTrimmable(s[0]);
    assert LeadingSpace(s) == 0;
    assert TrailingStart(s) == 1;
    assert Utf16Length(s[1..]) == 0;
  }

  /** What a successful join request returns: the company and the request's status. */
  datatype JoinReceipt = JoinReceipt(company: Company, status: Status)

  /** Whether the user has any membership row, whatever its company and status. */
  predicate HasAnyMembership(db: Db, userId: int) {
    exists i :: 0 <= i < |db.members| && db.members[i].userId == userId
  }

  /** A join request. Any membership row of the user blocks it with Conflict, a
      REJECTED one included; the message tells a pending request to the same company
      apart from any other row for it, and both from a row for another company. Only
      then is an unknown company NotFound. Success adds exactly one PENDING employee
      row, stamped `now`. */
  function RequestJoinCompany(db: Db, userId: int, companyId: int, now: nat): (r: Step<JoinReceipt>)
    ensures Atomic(db, r)
    ensures r.out.Failure? && r.out.error.kind == Conflict <==> HasAnyMembership(db, userId)
    ensures HasAnyMembership(db, userId) ==>
      var current := CompanyMembers.FindByUserId(db.members, userId).value;
      r.out.error.message ==
        if current.companyId != companyId then AlreadyLinked
        else if current.status == Pending then AlreadyRequested
        else AlreadyMember
    ensures r.out.Failure? && r.out.error.kind == NotFound <==>
      !HasAnyMembership(db, userId) && Directory.FindCompany(db.companies, companyId).None?
    ensures r.out.Failure? && r.out.error.kind == NotFound ==> r.out.error.message == CompanyNotFound
    ensures r.out.Failure? ==> r.out.error.kind in {Conflict, NotFound}
    ensures r.out.Success? ==>
      && r.db == db.(members := db.members + [Membership(companyId, userId, Employee, Pending, now, None)])
      && r.out.value.status == Pending
      && Directory.FindCompany(db.companies, companyId) == Some(r.out.value.company)
  {
    match CompanyMembers.FindByUserId(db.members, userId)
    case Some(current) =>
      if current.companyId == companyId then
        Reject(db, Conflict, if current.status == Pending then AlreadyRequested else AlreadyMember)
      else Reject(db, Conflict, AlreadyLinked)
    case None =>
      match Directory.FindCompany(db.companies, companyId)
      case None => Reject(db, NotFound, CompanyNotFound)
      case Some(company) =>
        Step(db.(members := CompanyMembers.CreateMembership(db.members, companyId, userId, now)),
             Success(JoinReceipt(company, Pending)))
  }

  /** A rejected user can never ask again, not even the company that rejected them. */
  lemma RejectedCannotRequestAgain(db: Db, userId: int, companyId: int, now: nat)
    requires exists i :: 0 <= i < |db.members| && db.members[i].userId == userId && db.members[i].status == Rejected
    ensures RequestJoinCompany(db, userId, companyId, now).out.Failure?
    ensures RequestJoinCompany(db, userId, companyId, now).db == db
  {
  }

  /** After a successful request the user's current membership is that request. */
  lemma RequestBecomesCurrent(db: Db, userId: int, companyId: int, now: nat)
    requires RequestJoinCompany(db, userId, companyId, now).out.Success?
    ensures GetMyMembership(RequestJoinCompany(db, userId, companyId, now).db, userId)
      == Some(Membership(companyId, userId, Employee, Pending, now, None))
  {
    CompanyMembers.FindByUserIdOnlyRow(db.members, Membership(companyId, userId, Employee, Pending, now, None));
  }

  /** The user's current membership: the row with the latest request time, or none. */
  function GetMyMembership(db: Db, userId: int): (r: Option<Membership>)
    ensures r.None? <==> !HasAnyMembership(db, userId)
    ensures r.Some? ==> r.value in db.members && r.value.userId == userId
    ensures r.Some? ==> forall i :: 0 <= i < |db.members| && db.members[i].userId == userId ==>
      db.members[i].requestedAt <= r.value.requestedAt
  {
    CompanyMembers.FindByUserId(db.members, userId)
  }
}

=== FILE: directory.dfy ===
/** The plain inserts and lookups on `users`, `companies` and `locations` that the
    core services call. E-mail addresses and company names are unique keys of
    their tables; locations have no unique key. */
module Directory {
  import opened Outcome
  import opened Schema
  import opened Tables

  function UserId(u: User): int { u.id }

  function CompanyId(c: Company): int { c.id }

  function LocationId(l: Location): int { l.id }

  function FindUser(users: seq<User>, id: int): (r: Option<User>)
    ensures r.None? <==> forall i :: 0 <= i < |users| ==> users[i].id != id
    ensures r.Some? ==> r.value in users && r.value.id == id
  {
    Find(users, (u: User) => u.id == id)
  }

  function FindUserByEmail(users: seq<User>, email: string): (r: Option<User>)
    ensures r.None? <==> forall i :: 0 <= i < |users| ==> users[i].email != email
    ensures r.Some? ==> r.value in users && r.value.email == email
  {
    Find(users, (u: User) => u.email == email)
  }

  /** Inserts a user under a fresh id; a second user with the same e-mail is a
      duplicate entry. */
  function CreateUser(users: seq<User>, name: string, surname: string, email: string,
                      digest: string, locationId: int, hasLicence: bool): (r: Write<(seq<User>, int)>)
    ensures r.DuplicateEntry? <==> FindUserByEmail(users, email).Some?
    ensures r.Written? ==>
      var (users', id) := r.value;
      && users' == users + [User(id, name, surname, email, digest, locationId, hasLicence)]
      && FindUser(users, id).None?
      && id >= 1
  {
    if FindUserByEmail(users, email).Some? then DuplicateEntry
    else
      var id := NextId(users, UserId);
      Written((users + [User(id, name, surname, email, digest, locationId, hasLicence)], id))
  }

  function FindCompany(companies: seq<Company>, id: int): (r: Option<Company>)
    ensures r.None? <==> forall i :: 0 <= i < |companies| ==> companies[i].id != id
    ensures r.Some? ==> r.value in companies && r.value.id == id
  {
    Find(companies, (c: Company) => c.id == id)
  }

  /** Inserts a company under a fresh id; company names are unique. */
  function CreateCompany(companies: seq<Company>, name: string): (r: Write<(seq<Company>, int)>)
    ensures r.DuplicateEntry? <==> exists i :: 0 <= i < |companies| && companies[i].name == name
    ensures r.Written? ==>
      var (companies', id) := r.value;
      && companies' == companies + [Company(id, name)]
      && FindCompany(companies, id).None?
      && id >= 1
  {
    if exists i :: 0 <= i < |companies| && companies[i].name == name then DuplicateEntry
    else
      var id := NextId(companies, CompanyId);
      Written((companies + [Company(id, name)], id))
  }

  /** Inserts a location under a fresh id. */
  function CreateLocation(locations: seq<Location>, address: Address): (r: (seq<Location>, int))
    ensures r.0 == locations + [Location(r.1, address)]
    ensures forall i :: 0 <= i < |locations| ==> locations[i].id != r.1
    ensures r.1 >= 1
  {
    var id := NextId(locations, LocationId);
    (locations + [Location(id, address)], id)
  }

  function FindLocation(locations: seq<Location>, id: int): (r: Option<Location>)
    ensures r.None? <==> forall i :: 0 <= i < |locations| ==> locations[i].id != id
    ensures r.Some? ==> r.value in locations && r.value.id == id
  {
    Find(locations, (l: Location) => l.id == id)
  }

  /** Adding users never changes the user an existing id resolves to. */
  lemma FindUserAppend(users: seq<User>, extra: seq<User>, id: int)
    requires FindUser(users, id).Some?
    ensures FindUser(users + extra, id) == FindUser(users, id)
  {
    FindAppend(users, extra, (u: User) => u.id == id);
  }
}

=== FILE: group_members.dfy ===
/** The `group_members` table: the seats of route groups. Within a group, a user
    and a pickup order each occupy at most one seat (both pairs are unique keys).
    Nothing keeps a user out of a second group. */
module GroupMembers {
  import opened Outcome
  import opened Schema
  import opened Tables
  import Directory
  import Vehicles
  import RouteGroups

  function PickupOrder(m: GroupMember): int { m.pickupOrder }

  /** The seats of one group, in storage order. */
  function RowsOf(rows: seq<GroupMember>, groupId: int): (r: seq<GroupMember>)
    ensures forall m :: m in r <==> m in rows && m.groupId == groupId
  {
    Filter(rows, (m: GroupMember) => m.groupId == groupId)
  }

  /** Two seats never share a group together with a user or a pickup order. */
  predicate DistinctSeats(a: GroupMember, b: GroupMember) {
    a.groupId == b.groupId ==> a.userId != b.userId && a.pickupOrder != b.pickupOrder
  }

  /** Two seats of one group are never both driver seats. */
  predicate NotBothDrivers(a: GroupMember, b: GroupMember) {
    a.groupId == b.groupId ==> !(a.isDriver && b.isDriver)
  }

  /** Whether a new seat (group, user, pickup order) collides with a unique key. */
  predicate Collides(rows: seq<GroupMember>, groupId: int, userId: int, pickupOrder: int) {
    exists i :: 0 <= i < |rows| && rows[i].groupId == groupId
      && (rows[i].userId == userId || rows[i].pickupOrder == pickupOrder)
  }

  /** Inserts exactly one seat carrying the given group, user, pickup order and driver
      flag (not a driver unless stated), or reports a duplicate entry. */
  function AddMember(rows: seq<GroupMember>, groupId: int, userId: int, pickupOrder: int,
                     isDriver: bool := false): (r: Write<seq<GroupMember>>)
    ensures r.DuplicateEntry? <==> Collides(rows, groupId, userId, pickupOrder)
    ensures r.Written? ==> r.value == rows + [GroupMember(groupId, userId, pickupOrder, isDriver)]
    ensures r.Written? ==> forall i :: 0 <= i < |rows| ==> DistinctSeats(rows[i], GroupMember(groupId, userId, pickupOrder, isDriver))
  {
    if Collides(rows, groupId, userId, pickupOrder) then DuplicateEntry
    else Written(rows + [GroupMember(groupId, userId, pickupOrder, isDriver)])
  }

  /** Nothing in the table stops a user seated in one group from taking a seat in another. */
  lemma UserMayJoinTwoGroups(rows: seq<GroupMember>, first: int, second: int, userId: int, order: int)
    requires first != second
    requires exists i :: 0 <= i < |rows| && rows[i].groupId == first && rows[i].userId == userId
    requires forall i :: 0 <= i < |rows| ==> rows[i].groupId != second
    ensures AddMember(rows, second, userId, order).Written?
  {
  }

  /** The group's seats, by pickup order ascending. */
  function ListMembers(rows: seq<GroupMember>, groupId: int): (r: seq<GroupMember>)
    ensures forall m :: multiset(r)[m] == if m.groupId == groupId then multiset(rows)[m] else 0
    ensures forall i :: 0 <= i < |r| ==> r[i].groupId == groupId
    ensures forall i, j :: 0 <= i < j < |r| ==> r[i].pickupOrder <= r[j].pickupOrder
  {
    var p := (m: GroupMember) => m.groupId == groupId;
    var r := SelectSorted(rows, p, PickupOrder);
    SelectedRows(rows, p, PickupOrder, r);
    r
  }

  /** The number of seats of the group. */
  function CountMembers(rows: seq<GroupMember>, groupId: int): (n: nat)
    ensures n == 0 <==> forall i :: 0 <= i < |rows| ==> rows[i].groupId != groupId
    ensures n <= |rows|
  {
    FilterEmpty(rows, (m: GroupMember) => m.groupId == groupId);
    |RowsOf(rows, groupId)|
  }

  /** A new seat raises its group's count by one and leaves every other group's count as it was. */
  lemma CountAfterAdd(rows: seq<GroupMember>, seat: GroupMember, groupId: int)
    ensures CountMembers(rows + [seat], groupId) == CountMembers(rows, groupId) + if seat.groupId == groupId then 1 else 0
  {
    FilterAppend(rows, seat, (m: GroupMember) => m.groupId == groupId);
  }

  /** Clears the driver flag on every seat of the group; other groups are untouched. */
  function ClearDriver(rows: seq<GroupMember>, groupId: int): (r: seq<GroupMember>)
    ensures |r| == |rows|
    ensures forall i :: 0 <= i < |rows| ==>
      r[i].groupId == rows[i].groupId && r[i].userId == rows[i].userId && r[i].pickupOrder == rows[i].pickupOrder
    ensures forall i :: 0 <= i < |rows| && rows[i].groupId == groupId ==> !r[i].isDriver
    ensures forall i :: 0 <= i < |rows| && rows[i].groupId != groupId ==> r[i] == rows[i]
  {
    seq(|rows|, i requires 0 <= i < |rows| =>
      if rows[i].groupId == groupId then rows[i].(isDriver := false) else rows[i])
  }

  /** Clearing driver flags changes no group's seat count. */
  lemma CountAfterClear(rows: seq<GroupMember>, cleared: int, groupId: int)
    ensures CountMembers(ClearDriver(rows, cleared), groupId) == CountMembers(rows, groupId)
  {
    var p := (m: GroupMember) => m.groupId == groupId;
    FilterSameVerdicts(ClearDriver(rows, cleared), rows, p, p);
  }

  /** Sets the driver flag on the (group, user) seat only; other drivers keep their flag. */
  function SetDriver(rows: seq<GroupMember>, groupId: int, userId: int): (r: seq<GroupMember>)
    ensures |r| == |rows|
    ensures forall i :: 0 <= i < |rows| && rows[i].groupId == groupId && rows[i].userId == userId ==>
      r[i] == rows[i].(isDriver := true)
    ensures forall i :: 0 <= i < |rows| && !(rows[i].groupId == groupId && rows[i].userId == userId) ==>
      r[i] == rows[i]
  {
    seq(|rows|, i requires 0 <= i < |rows| =>
      if rows[i].groupId == groupId && rows[i].userId == userId then rows[i].(isDriver := true) else rows[i])
  }

  /** Setting a driver alone does not demote the group's current driver: the group
      ends up with two drivers, which is why a driver seat clears the flags first. */
  lemma SetDriverKeepsOldDriver(rows: seq<GroupMember>, groupId: int, userId: int, j: nat, k: nat)
    requires j < |rows| && rows[j].groupId == groupId && rows[j].isDriver && rows[j].userId != userId
    requires k < |rows| && SeatOf(rows[k], groupId, userId)
    ensures var r := SetDriver(rows, groupId, userId);
      j != k && r[j].isDriver && r[k].isDriver && !NotBothDrivers(r[j], r[k])
  {
  }

  /** Clearing the group's flags before setting one leaves the (group, user) seats
      as the group's only drivers. */
  lemma ClearThenSetDriver(rows: seq<GroupMember>, groupId: int, userId: int)
    ensures var r := SetDriver(ClearDriver(rows, groupId), groupId, userId);
      && |r| == |rows|
      && (forall i :: 0 <= i < |r| && r[i].groupId == groupId && r[i].isDriver ==> r[i].userId == userId)
      && (forall i :: 0 <= i < |r| && SeatOf(rows[i], groupId, userId) ==> r[i].isDriver)
  {
    var c := ClearDriver(rows, groupId);
    assert forall i :: 0 <= i < |rows| ==> SeatOf(c[i], groupId, userId) == SeatOf(rows[i], groupId, userId);
  }

  /** Whether a seat is the one a (group, user) delete removes. */
  predicate SeatOf(m: GroupMember, groupId: int, userId: int) {
    m.groupId == groupId && m.userId == userId
  }

  /** The rows a (group, user) delete keeps. */
  function KeptSeat(groupId: int, userId: int): GroupMember -> bool {
    (m: GroupMember) => !SeatOf(m, groupId, userId)
  }

  /** Deletes the (group, user) seats; returns the remaining rows and how many were deleted. */
  function RemoveMember(rows: seq<GroupMember>, groupId: int, userId: int): (r: (seq<GroupMember>, nat))
    ensures forall m :: m in r.0 <==> m in rows && !SeatOf(m, groupId, userId)
    ensures forall m :: multiset(r.0)[m] == if SeatOf(m, groupId, userId) then 0 else multiset(rows)[m]
    ensures r.0 == Filter(rows, KeptSeat(groupId, userId))
    ensures |r.0| + r.1 == |rows|
    ensures r.1 == 0 <==> forall i :: 0 <= i < |rows| ==> !SeatOf(rows[i], groupId, userId)
  {
    var keep := KeptSeat(groupId, userId);
    var kept := Filter(rows, keep);
    FilterMultiset(rows, keep);
    if forall i :: 0 <= i < |rows| ==> !SeatOf(rows[i], groupId, userId) then
      FilterAll(rows, keep);
      (kept, 0)
    else
      FilterDrops(rows, keep);
      (kept, |rows| - |kept|)
  }

  /** Under the unique (group, user) key a delete removes at most one seat. */
  lemma {:induction false} RemoveAtMostOne(rows: seq<GroupMember>, groupId: int, userId: int)
    requires Pairwise(rows, DistinctSeats)
    ensures RemoveMember(rows, groupId, userId).1 <= 1
  {
    var keep := KeptSeat(groupId, userId);
    if rows != [] {
      var t := rows[1..];
      assert Pairwise(t, DistinctSeats);
      RemoveAtMostOne(t, groupId, userId);
      if !keep(rows[0]) {
        forall k | 0 <= k < |t|
          ensures keep(t[k])
        {
          assert DistinctSeats(rows[0], rows[k + 1]);
        }
        FilterAll(t, keep);
      }
    }
  }

  /** A delete works row by row and keeps storage order: deleting from two tables
      laid end to end is deleting from each, and a single row goes exactly when it
      is the (group, user) seat. */
  lemma RemoveMemberSplits(a: seq<GroupMember>, b: seq<GroupMember>, groupId: int, userId: int)
    ensures RemoveMember(a + b, groupId, userId).0 == RemoveMember(a, groupId, userId).0 + RemoveMember(b, groupId, userId).0
    ensures forall m :: RemoveMember([m], groupId, userId).0 == if SeatOf(m, groupId, userId) then [] else [m]
  {
    FilterConcat(a, b, KeptSeat(groupId, userId));
    forall m
      ensures RemoveMember([m], groupId, userId).0 == if SeatOf(m, groupId, userId) then [] else [m]
    {
      assert [m][1..] == [];
    }
  }

  /** Under the unique (group, user) key, deleting the seat at position `k` leaves
      every other seat where it was, in storage order. */
  lemma RemoveSeatInPlace(rows: seq<GroupMember>, groupId: int, userId: int, k: nat)
    requires Pairwise(rows, DistinctSeats)
    requires k < |rows| && SeatOf(rows[k], groupId, userId)
    ensures RemoveMember(rows, groupId, userId) == (rows[..k] + rows[k + 1..], 1)
  {
    var keep := KeptSeat(groupId, userId);
    forall i | 0 <= i < |rows| && i != k
      ensures keep(rows[i])
    {
      if i < k {
        assert DistinctSeats(rows[i], rows[k]);
      } else {
        assert DistinctSeats(rows[k], rows[i]);
      }
    }
    FilterDropsOne(rows, keep, k);
  }

  /** Deleting seats never raises a group's count. */
  lemma CountAfterRemove(rows: seq<GroupMember>, groupId: int, userId: int, other: int)
    ensures CountMembers(RemoveMember(rows, groupId, userId).0, other) <= CountMembers(rows, other)
  {
    FilterOfFilter(rows, KeptSeat(groupId, userId), (m: GroupMember) => m.groupId == other);
  }

  /** What a member's transport plan shows: the group, its vehicle and, when the
      group has one, the group's company location. */
  datatype GroupPlan = GroupPlan(group: RouteGroup, vehicle: Vehicle, location: Option<Location>)

  /** A seat whose group and vehicle both exist, so the plan query's inner joins keep it. */
  predicate Joinable(db: Db, m: GroupMember) {
    && RouteGroups.FindById(db.groups, m.groupId).Some?
    && Vehicles.FindById(db.vehicles, RouteGroups.FindById(db.groups, m.groupId).value.vehicleId).Some?
  }

  /** The plan a seat yields: its group, the group's vehicle and the group's location if any. */
  function PlanOf(db: Db, m: GroupMember): (p: GroupPlan)
    requires Joinable(db, m)
    ensures p.group.id == m.groupId && p.vehicle.id == p.group.vehicleId
    ensures p.group in db.groups && p.vehicle in db.vehicles
    ensures p.group.locationId.None? ==> p.location.None?
    ensures p.location.Some? ==> p.location.value in db.locations && Some(p.location.value.id) == p.group.locationId
  {
    var g := RouteGroups.FindById(db.groups, m.groupId).value;
    var v := Vehicles.FindById(db.vehicles, g.vehicleId).value;
    var loc := if g.locationId.Some? then Directory.FindLocation(db.locations, g.locationId.value) else None;
    GroupPlan(g, v, loc)
  }

  /** The plan of the first joinable seat of the user in storage order, or none when
      the user has no such seat. */
  function FindUserGroupPlan(db: Db, userId: int): (r: Option<GroupPlan>)
    ensures r.None? <==> forall i :: 0 <= i < |db.groupMembers| ==>
      !(db.groupMembers[i].userId == userId && Joinable(db, db.groupMembers[i]))
    ensures r.Some? ==>
      exists i :: 0 <= i < |db.groupMembers| && db.groupMembers[i].userId == userId
        && Joinable(db, db.groupMembers[i]) && r.value == PlanOf(db, db.groupMembers[i])
  {
    match Find(db.groupMembers, (m: GroupMember) => m.userId == userId && Joinable(db, m))
    case None => None
    case Some(m) => Some(PlanOf(db, m))
  }
}

=== FILE: invariants.dfy ===
/** The cross-table invariants the storage constraints and the service checks keep
    together, and the proofs that every operation writing those tables preserves
    them: plates are unique, a vehicle carries at most one group, a group's seats
    have distinct users and pickup orders, a group has at most one driver and that
    driver holds a licence, and no group has more seats than its vehicle has room. */
module Invariants {
  import opened Outcome
  import opened Schema
  import opened Tables
  import Directory
  import Vehicles
  import RouteGroups
  import GroupMembers
  import CompanyMembers
  import CompanyService
  import AdminService
  import TransportService
  import AuthService

  predicate DistinctPlates(a: Vehicle, b: Vehicle) { a.plate != b.plate }

  predicate DistinctGroupIds(a: RouteGroup, b: RouteGroup) { a.id != b.id }

  predicate DistinctGroupVehicles(a: RouteGroup, b: RouteGroup) { a.vehicleId != b.vehicleId }

  predicate DistinctMemberUsers(a: Membership, b: Membership) { a.userId != b.userId }

  /** The room of a group: its vehicle's capacity (no room when the vehicle is missing). */
  function Capacity(db: Db, g: RouteGroup): int {
    match Vehicles.FindById(db.vehicles, g.vehicleId)
    case Some(v) => v.capacity
    case None => 0
  }

  /** Vehicles and route groups: unique plates, room for someone in every vehicle,
      unique group ids, one group per vehicle, and every group's vehicle on record. */
  ghost predicate RegistryValid(db: Db) {
    && Pairwise(db.vehicles, DistinctPlates)
    && (forall i :: 0 <= i < |db.vehicles| ==> db.vehicles[i].capacity > 0)
    && Pairwise(db.groups, DistinctGroupIds)
    && Pairwise(db.groups, DistinctGroupVehicles)
    && (forall i :: 0 <= i < |db.groups| ==> Vehicles.FindById(db.vehicles, db.groups[i].vehicleId).Some?)
  }

  /** Seats: unique (group, user) and (group, pickup order), at most one driver per
      group, every driver licensed, every seat in a group on record. */
  ghost predicate SeatsValid(db: Db) {
    && Pairwise(db.groupMembers, GroupMembers.DistinctSeats)
    && Pairwise(db.groupMembers, GroupMembers.NotBothDrivers)
    && (forall i :: 0 <= i < |db.groupMembers| ==> RouteGroups.FindById(db.groups, db.groupMembers[i].groupId).Some?)
    && (forall i :: 0 <= i < |db.groupMembers| && db.groupMembers[i].isDriver ==>
          TransportService.HoldsLicence(db, db.groupMembers[i].userId))
  }

  /** No group has more seats than its vehicle's capacity. */
  ghost predicate WithinCapacity(db: Db) {
    forall i :: 0 <= i < |db.groups| ==>
      GroupMembers.CountMembers(db.groupMembers, db.groups[i].id) <= Capacity(db, db.groups[i])
  }

  ghost predicate Valid(db: Db) {
    RegistryValid(db) && SeatsValid(db) && WithinCapacity(db)
  }

  /** Memberships: every row's user is on record and a user has at most one row. */
  ghost predicate MembershipsValid(db: Db) {
    AuthService.MembersHaveUsers(db) && Pairwise(db.members, DistinctMemberUsers)
  }

  /** The empty store is valid. */
  lemma EmptyValid()
    ensures Valid(Db([], [], [], [], [], [], [], [])) && MembershipsValid(Db([], [], [], [], [], [], [], []))
  {
  }

  // -------------------------------------------------------------- group lookup

  /** With unique group ids, looking a group up by its id finds that very group. */
  lemma FindGroupOfUniqueId(groups: seq<RouteGroup>, i: nat)
    requires Pairwise(groups, DistinctGroupIds)
    requires i < |groups|
    ensures RouteGroups.FindById(groups, groups[i].id) == Some(groups[i])
  {
    var x := RouteGroups.FindById(groups, groups[i].id).value;
    var j :| 0 <= j < |groups| && groups[j] == x;
  }

  // ------------------------------------------------------- adding a seat keeps

  /** The staged clear-then-insert keeps seats distinct when the new seat collides with none. */
  lemma SeatedKeepsDistinctSeats(rows: seq<GroupMember>, groupId: int, userId: int, pickupOrder: int, isDriver: bool)
    requires Pairwise(rows, GroupMembers.DistinctSeats)
    requires !GroupMembers.Collides(rows, groupId, userId, pickupOrder)
    ensures Pairwise(TransportService.Seated(rows, groupId, userId, pickupOrder, isDriver), GroupMembers.DistinctSeats)
  {
    var staged := if isDriver then GroupMembers.ClearDriver(rows, groupId) else rows;
    var seat := GroupMember(groupId, userId, pickupOrder, isDriver);
    forall i, j | 0 <= i < j < |staged|
      ensures GroupMembers.DistinctSeats(staged[i], staged[j])
    {
      assert GroupMembers.DistinctSeats(rows[i], rows[j]);
    }
    forall i | 0 <= i < |staged|
      ensures GroupMembers.DistinctSeats(staged[i], seat)
    {
      assert !(rows[i].groupId == groupId && (rows[i].userId == userId || rows[i].pickupOrder == pickupOrder));
    }
    PairwiseAppend(staged, seat, GroupMembers.DistinctSeats);
  }

  /** The staged clear-then-insert never leaves two drivers in a group: a driver seat
      first clears the group's flags, a passenger seat carries none. */
  lemma SeatedKeepsOneDriver(rows: seq<GroupMember>, groupId: int, userId: int, pickupOrder: int, isDriver: bool)
    requires Pairwise(rows, GroupMembers.NotBothDrivers)
    ensures Pairwise(TransportService.Seated(rows, groupId, userId, pickupOrder, isDriver), GroupMembers.NotBothDrivers)
  {
    var staged := if isDriver then GroupMembers.ClearDriver(rows, groupId) else rows;
    var seat := GroupMember(groupId, userId, pickupOrder, isDriver);
    forall i, j | 0 <= i < j < |staged|
      ensures GroupMembers.NotBothDrivers(staged[i], staged[j])
    {
      assert GroupMembers.NotBothDrivers(rows[i], rows[j]);
    }
    PairwiseAppend(staged, seat, GroupMembers.NotBothDrivers);
  }

  /** A successful seat assignment keeps every invariant. */
  lemma AddMemberPreservesValid(db: Db, companyId: int, groupId: int, userId: int, pickupOrder: int, isDriver: bool)
    requires Valid(db)
    ensures Valid(TransportService.AddMemberToGroup(db, companyId, groupId, userId, pickupOrder, isDriver).db)
  {
    var r := TransportService.AddMemberToGroup(db, companyId, groupId, userId, pickupOrder, isDriver);
    if r.out.Success? {
      SeatedKeepsSeatsValid(db, groupId, userId, pickupOrder, isDriver);
      SeatedKeepsCapacity(db, groupId, userId, pickupOrder, isDriver);
    }
  }

  /** A seat in a group on record that collides with no seat, and is a driver seat
      only for a licensed user, keeps the seat invariants. */
  lemma SeatedKeepsSeatsValid(db: Db, groupId: int, userId: int, pickupOrder: int, isDriver: bool)
    requires SeatsValid(db)
    requires RouteGroups.FindById(db.groups, groupId).Some?
    requires isDriver ==> TransportService.HoldsLicence(db, userId)
    requires !GroupMembers.Collides(db.groupMembers, groupId, userId, pickupOrder)
    ensures SeatsValid(db.(groupMembers := TransportService.Seated(db.groupMembers, groupId, userId, pickupOrder, isDriver)))
  {
    var rows := db.groupMembers;
    var seated := TransportService.Seated(rows, groupId, userId, pickupOrder, isDriver);
    SeatedKeepsDistinctSeats(rows, groupId, userId, pickupOrder, isDriver);
    SeatedKeepsOneDriver(rows, groupId, userId, pickupOrder, isDriver);
    forall i | 0 <= i < |seated|
      ensures RouteGroups.FindById(db.groups, seated[i].groupId).Some?
      ensures seated[i].isDriver ==> TransportService.HoldsLicence(db, seated[i].userId)
    {
      if i < |rows| {
        assert seated[i].groupId == rows[i].groupId && seated[i].userId == rows[i].userId;
        assert seated[i].isDriver ==> rows[i].isDriver;
      }
    }
  }

  /** A seat in a group whose vehicle still has room keeps every group within its
      vehicle's capacity. */
  lemma SeatedKeepsCapacity(db: Db, groupId: int, userId: int, pickupOrder: int, isDriver: bool)
    requires Pairwise(db.groups, DistinctGroupIds) && WithinCapacity(db)
    requires RouteGroups.FindById(db.groups, groupId).Some?
    requires TransportService.GroupVehicle(db, groupId).Some?
    requires GroupMembers.CountMembers(db.groupMembers, groupId) < TransportService.GroupVehicle(db, groupId).value.capacity
    ensures WithinCapacity(db.(groupMembers := TransportService.Seated(db.groupMembers, groupId, userId, pickupOrder, isDriver)))
  {
    var rows := db.groupMembers;
    var seated := TransportService.Seated(rows, groupId, userId, pickupOrder, isDriver);
    forall i | 0 <= i < |db.groups|
      ensures GroupMembers.CountMembers(seated, db.groups[i].id) <= Capacity(db, db.groups[i])
    {
      SeatedCountOf(rows, groupId, userId, pickupOrder, isDriver, db.groups[i].id);
      if db.groups[i].id == groupId {
        FindGroupOfUniqueId(db.groups, i);
      }
    }
  }

  /** Staging a seat adds one to its own group's count and leaves the others. */
  lemma SeatedCountOf(rows: seq<GroupMember>, groupId: int, userId: int, pickupOrder: int, isDriver: bool, h: int)
    ensures GroupMembers.CountMembers(TransportService.Seated(rows, groupId, userId, pickupOrder, isDriver), h)
      == GroupMembers.CountMembers(rows, h) + if h == groupId then 1 else 0
  {
    var staged := if isDriver then GroupMembers.ClearDriver(rows, groupId) else rows;
    GroupMembers.CountAfterClear(rows, groupId, h);
    GroupMembers.CountAfterAdd(staged, GroupMember(groupId, userId, pickupOrder, isDriver), h);
  }

  /** Removing a seat keeps every invariant. */
  lemma RemoveMemberPreservesValid(db: Db, companyId: int, groupId: int, userId: int)
    requires Valid(db)
    ensures Valid(TransportService.RemoveMemberFromGroup(db, companyId, groupId, userId).db)
  {
    var r := TransportService.RemoveMemberFromGroup(db, companyId, groupId, userId);
    if r.out.Success? {
      assert r.db == db.(groupMembers := GroupMembers.RemoveMember(db.groupMembers, groupId, userId).0);
      RemovedKeepsSeatsValid(db, groupId, userId);
      RemovedKeepsCapacity(db, groupId, userId);
    }
  }

  lemma RemovedKeepsSeatsValid(db: Db, groupId: int, userId: int)
    requires SeatsValid(db)
    ensures SeatsValid(db.(groupMembers := GroupMembers.RemoveMember(db.groupMembers, groupId, userId).0))
  {
    var keep := (m: GroupMember) => !GroupMembers.SeatOf(m, groupId, userId);
    var rows := db.groupMembers;
    var kept := GroupMembers.RemoveMember(rows, groupId, userId).0;
    assert kept == Filter(rows, keep);
    PairwiseFilter(rows, keep, GroupMembers.DistinctSeats);
    PairwiseFilter(rows, keep, GroupMembers.NotBothDrivers);
    forall i | 0 <= i < |kept|
      ensures RouteGroups.FindById(db.groups, kept[i].groupId).Some?
      ensures kept[i].isDriver ==> TransportService.HoldsLicence(db, kept[i].userId)
    {
      assert kept[i] in rows;
    }
  }

  lemma RemovedKeepsCapacity(db: Db, groupId: int, userId: int)
    requires WithinCapacity(db)
    ensures WithinCapacity(db.(groupMembers := GroupMembers.RemoveMember(db.groupMembers, groupId, userId).0))
  {
    forall i | 0 <= i < |db.groups|
      ensures GroupMembers.CountMembers(GroupMembers.RemoveMember(db.groupMembers, groupId, userId).0, db.groups[i].id)
        <= Capacity(db, db.groups[i])
    {
      GroupMembers.CountAfterRemove(db.groupMembers, groupId, userId, db.groups[i].id);
    }
  }

  // ----------------------------------------------------- registry keeps valid

  /** Creating a vehicle keeps every invariant: its plate is new and no group's
      vehicle lookup changes. */
  lemma CreateVehiclePreservesValid(db: Db, companyId: int, name: string, plate: string, capacity: int)
    requires Valid(db)
    ensures Valid(TransportService.CreateVehicle(db, companyId, name, plate, capacity).db)
  {
    var r := TransportService.CreateVehicle(db, companyId, name, plate, capacity);
    if r.out.Success? {
      var v := Vehicle(r.out.value, companyId, name, plate, capacity);
      AppendVehicleKeepsRegistry(db, v);
      AppendVehicleKeepsCapacity(db, v);
    }
  }

  lemma AppendVehicleKeepsRegistry(db: Db, v: Vehicle)
    requires RegistryValid(db)
    requires !Vehicles.PlateTaken(db.vehicles, v.plate) && v.capacity > 0
    ensures RegistryValid(db.(vehicles := db.vehicles + [v]))
  {
    assert forall i :: 0 <= i < |db.vehicles| ==> DistinctPlates(db.vehicles[i], v);
    PairwiseAppend(db.vehicles, v, DistinctPlates);
    forall i | 0 <= i < |db.groups|
      ensures Vehicles.FindById(db.vehicles + [v], db.groups[i].vehicleId).Some?
    {
      Vehicles.FindByIdAppend(db.vehicles, [v], db.groups[i].vehicleId);
    }
  }

  lemma AppendVehicleKeepsCapacity(db: Db, v: Vehicle)
    requires RegistryValid(db) && WithinCapacity(db)
    ensures WithinCapacity(db.(vehicles := db.vehicles + [v]))
  {
    var db' := db.(vehicles := db.vehicles + [v]);
    forall i | 0 <= i < |db.groups|
      ensures Capacity(db', db.groups[i]) == Capacity(db, db.groups[i])
    {
      Vehicles.FindByIdAppend(db.vehicles, [v], db.groups[i].vehicleId);
    }
  }

  /** A new group with a fresh id, on a vehicle on record that has no group yet,
      keeps every invariant: it starts with no seats. */
  lemma AppendGroupKeepsValid(db: Db, g: RouteGroup)
    requires Valid(db)
    requires RouteGroups.FindById(db.groups, g.id).None?
    requires !RouteGroups.VehicleGrouped(db.groups, g.vehicleId)
    requires Vehicles.FindById(db.vehicles, g.vehicleId).Some?
    ensures Valid(db.(groups := db.groups + [g]))
  {
    AppendGroupKeepsRegistry(db, g);
    AppendGroupKeepsSeats(db, g);
    NewGroupHasNoSeats(db, g);
    assert Vehicles.FindById(db.vehicles, g.vehicleId).value in db.vehicles;
    AppendGroupKeepsCapacity(db, g);
  }

  lemma AppendGroupKeepsRegistry(db: Db, g: RouteGroup)
    requires RegistryValid(db)
    requires RouteGroups.FindById(db.groups, g.id).None?
    requires !RouteGroups.VehicleGrouped(db.groups, g.vehicleId)
    requires Vehicles.FindById(db.vehicles, g.vehicleId).Some?
    ensures RegistryValid(db.(groups := db.groups + [g]))
  {
    assert forall i :: 0 <= i < |db.groups| ==> DistinctGroupIds(db.groups[i], g);
    assert forall i :: 0 <= i < |db.groups| ==> DistinctGroupVehicles(db.groups[i], g);
    PairwiseAppend(db.groups, g, DistinctGroupIds);
    PairwiseAppend(db.groups, g, DistinctGroupVehicles);
  }

  lemma AppendGroupKeepsSeats(db: Db, g: RouteGroup)
    requires SeatsValid(db)
    ensures SeatsValid(db.(groups := db.groups + [g]))
  {
    forall i | 0 <= i < |db.groupMembers|
      ensures RouteGroups.FindById(db.groups + [g], db.groupMembers[i].groupId).Some?
    {
      RouteGroups.FindByIdAppend(db.groups, [g], db.groupMembers[i].groupId);
    }
  }

  lemma AppendGroupKeepsCapacity(db: Db, g: RouteGroup)
    requires WithinCapacity(db)
    requires GroupMembers.CountMembers(db.groupMembers, g.id) == 0 && Capacity(db, g) >= 0
    ensures WithinCapacity(db.(groups := db.groups + [g]))
  {
    var groups := db.groups + [g];
    forall i | 0 <= i < |groups|
      ensures GroupMembers.CountMembers(db.groupMembers, groups[i].id) <= Capacity(db, groups[i])
    {
      if i < |db.groups| {
        assert groups[i] == db.groups[i];
      }
    }
  }

  /** A group id no group carries has no seats when every seat's group is on record. */
  lemma NewGroupHasNoSeats(db: Db, g: RouteGroup)
    requires SeatsValid(db)
    requires RouteGroups.FindById(db.groups, g.id).None?
    ensures GroupMembers.CountMembers(db.groupMembers, g.id) == 0
  {
    forall i | 0 <= i < |db.groupMembers|
      ensures db.groupMembers[i].groupId != g.id
    {
    }
  }

  /** Creating a route group keeps every invariant. */
  lemma CreateRouteGroupPreservesValid(db: Db, companyId: int, vehicleId: int, locationId: int, name: string)
    requires Valid(db)
    ensures Valid(TransportService.CreateRouteGroup(db, companyId, vehicleId, locationId, name).db)
  {
    var r := TransportService.CreateRouteGroup(db, companyId, vehicleId, locationId, name);
    if r.out.Success? {
      var g := RouteGroup(r.out.value, companyId, vehicleId, None, name, true);
      assert TransportService.OwnsVehicle(db, companyId, vehicleId);
      AppendGroupKeepsValid(db, g);
    }
  }

  // ------------------------------------------------------------- memberships

  /** The seat and registry invariants read users, vehicles, groups and seats only. */
  lemma ValidAfterDirectoryWrite(db: Db, db': Db)
    requires Valid(db)
    requires db'.vehicles == db.vehicles && db'.groups == db.groups && db'.groupMembers == db.groupMembers
    requires forall u :: TransportService.HoldsLicence(db, u) ==> TransportService.HoldsLicence(db', u)
    ensures Valid(db')
  {
    forall i | 0 <= i < |db.groups|
      ensures Capacity(db', db'.groups[i]) == Capacity(db, db.groups[i])
    {
    }
  }

  /** A write to the memberships alone keeps every seat and registry invariant. */
  lemma ValidAfterMembershipWrite(db: Db, db': Db)
    requires Valid(db)
    requires db' == db.(members := db'.members)
    ensures Valid(db')
  {
    ValidAfterDirectoryWrite(db, db');
  }

  /** Join requests, approvals and rejections write only memberships, which the seat
      and registry invariants do not mention. */
  lemma MembershipDecisionsKeepValid(db: Db, userId: int, companyId: int, now: nat)
    requires Valid(db)
    ensures Valid(CompanyService.RequestJoinCompany(db, userId, companyId, now).db)
    ensures Valid(AdminService.ApproveRequest(db, companyId, userId, now).db)
    ensures Valid(AdminService.RejectRequest(db, companyId, userId).db)
  {
    ValidAfterMembershipWrite(db, CompanyService.RequestJoinCompany(db, userId, companyId, now).db);
    ValidAfterMembershipWrite(db, AdminService.ApproveRequest(db, companyId, userId, now).db);
    ValidAfterMembershipWrite(db, AdminService.RejectRequest(db, companyId, userId).db);
  }

  /** A join request by a user on record keeps one membership row per user: the
      request is refused whenever the user already has a row. */
  lemma RequestJoinPreservesMemberships(db: Db, userId: int, companyId: int, now: nat)
    requires MembershipsValid(db)
    requires Directory.FindUser(db.users, userId).Some?
    ensures MembershipsValid(CompanyService.RequestJoinCompany(db, userId, companyId, now).db)
  {
    var r := CompanyService.RequestJoinCompany(db, userId, companyId, now);
    if r.out.Success? {
      var m := Membership(companyId, userId, Employee, Pending, now, None);
      assert forall i :: 0 <= i < |db.members| ==> DistinctMemberUsers(db.members[i], m);
      PairwiseAppend(db.members, m, DistinctMemberUsers);
    }
  }

  /** Approving or rejecting rewrites rows in place and keeps their users. */
  lemma DecisionsPreserveMemberships(db: Db, companyId: int, userId: int, now: nat)
    requires MembershipsValid(db)
    ensures MembershipsValid(AdminService.ApproveRequest(db, companyId, userId, now).db)
    ensures MembershipsValid(AdminService.RejectRequest(db, companyId, userId).db)
  {
    SameUsersKeepMemberships(db, AdminService.ApproveRequest(db, companyId, userId, now).db);
    SameUsersKeepMemberships(db, AdminService.RejectRequest(db, companyId, userId).db);
  }

  /** Rewriting membership rows without touching their users or the users table
      keeps one row per user, each on record. */
  lemma SameUsersKeepMemberships(db: Db, db': Db)
    requires MembershipsValid(db)
    requires db'.users == db.users && |db'.members| == |db.members|
    requires forall i :: 0 <= i < |db.members| ==> db'.members[i].userId == db.members[i].userId
    ensures MembershipsValid(db')
  {
    forall i, j | 0 <= i < j < |db.members|
      ensures DistinctMemberUsers(db'.members[i], db'.members[j])
    {
      assert DistinctMemberUsers(db.members[i], db.members[j]);
    }
  }

  /** With one row per user, the user's current membership is simply the user's row. */
  lemma CurrentIsOnlyRow(db: Db, k: nat)
    requires MembershipsValid(db)
    requires k < |db.members|
    ensures CompanyMembers.FindByUserId(db.members, db.members[k].userId) == Some(db.members[k])
  {
    var cur := CompanyMembers.FindByUserId(db.members, db.members[k].userId).value;
    var j :| 0 <= j < |db.members| && db.members[j] == cur;
  }

  // ------------------------------------------------------------ registration

  /** Adding users keeps every licence of the users already on record. */
  lemma LicencesSurviveNewUser(db: Db, db': Db, users: seq<User>)
    requires db'.users == db.users + users
    ensures forall u :: TransportService.HoldsLicence(db, u) ==> TransportService.HoldsLicence(db', u)
  {
    forall u | TransportService.HoldsLicence(db, u)
      ensures TransportService.HoldsLicence(db', u)
    {
      Directory.FindUserAppend(db.users, users, u);
    }
  }

  /** Adding a user keeps every membership's user on record. */
  lemma MembersSurviveNewUser(db: Db, users: seq<User>)
    requires AuthService.MembersHaveUsers(db)
    ensures AuthService.MembersHaveUsers(db.(users := db.users + users))
  {
    forall i | 0 <= i < |db.members|
      ensures Directory.FindUser(db.users + users, db.members[i].userId).Some?
    {
      Directory.FindUserAppend(db.users, users, db.members[i].userId);
    }
  }

  /** Employee registration keeps every invariant. */
  lemma RegisterEmployeePreservesValid(db: Db, a: AuthService.Applicant)
    requires Valid(db) && MembershipsValid(db)
    ensures Valid(AuthService.RegisterEmployee(db, a).db)
    ensures MembershipsValid(AuthService.RegisterEmployee(db, a).db)
  {
    var r := AuthService.RegisterEmployee(db, a);
    if r.out.Success? {
      LicencesSurviveNewUser(db, r.db, [r.out.value.user]);
      ValidAfterDirectoryWrite(db, r.db);
      MembersSurviveNewUser(db, [r.out.value.user]);
    }
  }

  /** Company-admin registration keeps every invariant: the new membership row is
      the only one of a brand-new user. */
  lemma RegisterCompanyAdminPreservesValid(db: Db, a: AuthService.Applicant, companyName: string, site: Address, now: nat)
    requires Valid(db) && MembershipsValid(db)
    ensures Valid(AuthService.RegisterCompanyAdmin(db, a, companyName, site, now).db)
    ensures MembershipsValid(AuthService.RegisterCompanyAdmin(db, a, companyName, site, now).db)
  {
    var r := AuthService.RegisterCompanyAdmin(db, a, companyName, site, now);
    if r.out.Success? {
      var s := r.out.value;
      var companyId := s.membership.value.companyId;
      var siteId := r.db.locations[|db.locations| + 1].id;
      OnboardingKeepsValid(db, a, s.subject, s.user.locationId, companyId, companyName, siteId, site, now);
      OnboardingKeepsMemberships(db, a, s.subject, s.user.locationId, companyId, companyName, siteId, site, now);
    }
  }

  lemma OnboardingKeepsValid(db: Db, a: AuthService.Applicant, userId: int, homeId: int, companyId: int,
                             companyName: string, siteId: int, site: Address, now: nat)
    requires Valid(db)
    ensures Valid(AuthService.Onboarded(db, a, userId, homeId, companyId, companyName, siteId, site, now))
  {
    var db' := AuthService.Onboarded(db, a, userId, homeId, companyId, companyName, siteId, site, now);
    LicencesSurviveNewUser(db, db', [AuthService.NewUser(a, userId, homeId)]);
    ValidAfterDirectoryWrite(db, db');
  }

  lemma OnboardingKeepsMemberships(db: Db, a: AuthService.Applicant, userId: int, homeId: int, companyId: int,
                                   companyName: string, siteId: int, site: Address, now: nat)
    requires MembershipsValid(db)
    requires Directory.FindUser(db.users, userId).None?
    ensures MembershipsValid(AuthService.Onboarded(db, a, userId, homeId, companyId, companyName, siteId, site, now))
  {
    var user := AuthService.NewUser(a, userId, homeId);
    var m := Membership(companyId, userId, Admin, Approved, now, Some(now));
    MembersSurviveNewUser(db, [user]);
    FindAppend(db.users, [user], (u: User) => u.id == userId);
    assert forall i :: 0 <= i < |db.members| ==> DistinctMemberUsers(db.members[i], m);
    PairwiseAppend(db.members, m, DistinctMemberUsers);
  }
}

=== FILE: outcome.dfy ===
/** Optional values, error kinds and results shared by every layer of the model.
    An `Error` carries the HTTP-facing kind the backend attaches as `err.status`
    together with the exact message the backend sends back. */
module Outcome {

  datatype Option<+T> = None | Some(value: T)

  /** The error kinds the backend raises; `Internal` stands for a storage error
      that a service rethrows without translating it. */
  datatype ErrorKind = BadRequest | Unauthorized | Forbidden | NotFound | Conflict | Internal

  datatype Error = Error(kind: ErrorKind, message: string)

  datatype Result<+T> = Success(value: T) | Failure(error: Error)

  /** The HTTP status code the backend attaches to each kind of error. */
  function HttpStatus(kind: ErrorKind): (code: nat)
    ensures 400 <= code < 600
    ensures code < 500 <==> kind != Internal
  {
    match kind
    case BadRequest => 400
    case Unauthorized => 401
    case Forbidden => 403
    case NotFound => 404
    case Conflict => 409
    case Internal => 500
  }
}

=== FILE: route_groups.dfy ===
/** The `route_groups` table. A vehicle carries at most one group (the vehicle is a
    unique key). The insert writes company, vehicle, name and the active flag only:
    the group's company location is never stored. */
module RouteGroups {
  import opened Outcome
  import opened Schema
  import opened Tables

  function GroupId(g: RouteGroup): int { g.id }

  /** Sort key for ORDER BY id DESC. */
  function NegatedId(g: RouteGroup): int { -g.id }

  predicate VehicleGrouped(groups: seq<RouteGroup>, vehicleId: int) {
    exists i :: 0 <= i < |groups| && groups[i].vehicleId == vehicleId
  }

  function FindById(groups: seq<RouteGroup>, id: int): (r: Option<RouteGroup>)
    ensures r.None? <==> forall i :: 0 <= i < |groups| ==> groups[i].id != id
    ensures r.Some? ==> r.value in groups && r.value.id == id
  {
    Find(groups, (g: RouteGroup) => g.id == id)
  }

  /** Inserts a group under a fresh id and returns that id; `active` defaults to true
      and the company location column is left empty. A vehicle that already has a
      group is a duplicate entry. */
  function CreateRouteGroup(groups: seq<RouteGroup>, companyId: int, vehicleId: int, name: string,
                            active: bool := true): (r: Write<(seq<RouteGroup>, int)>)
    ensures r.DuplicateEntry? <==> VehicleGrouped(groups, vehicleId)
    ensures r.Written? ==>
      var (groups', id) := r.value;
      && groups' == groups + [RouteGroup(id, companyId, vehicleId, None, name, active)]
      && FindById(groups, id).None?
      && FindById(groups', id) == Some(RouteGroup(id, companyId, vehicleId, None, name, active))
  {
    if VehicleGrouped(groups, vehicleId) then DuplicateEntry
    else
      var id := NextId(groups, GroupId);
      var g := RouteGroup(id, companyId, vehicleId, None, name, active);
      FindAppend(groups, [g], (g: RouteGroup) => g.id == id);
      Written((groups + [g], id))
  }

  /** A group created without an explicit flag is active and has no stored location. */
  lemma CreateRouteGroupDefaults(groups: seq<RouteGroup>, companyId: int, vehicleId: int, name: string)
    requires !VehicleGrouped(groups, vehicleId)
    ensures var r := CreateRouteGroup(groups, companyId, vehicleId, name);
      r.Written? && r.value.0[|groups|].active && r.value.0[|groups|].locationId.None?
  {
  }

  /** The company's groups, newest id first. */
  function ListByCompanyId(groups: seq<RouteGroup>, companyId: int): (r: seq<RouteGroup>)
    ensures forall g :: multiset(r)[g] == if g.companyId == companyId then multiset(groups)[g] else 0
    ensures forall i :: 0 <= i < |r| ==> r[i].companyId == companyId
    ensures forall i, j :: 0 <= i < j < |r| ==> r[i].id >= r[j].id
  {
    var p := (g: RouteGroup) => g.companyId == companyId;
    var r := SelectSorted(groups, p, NegatedId);
    SelectedRows(groups, p, NegatedId, r);
    r
  }

  /** Adding groups never changes the group an existing id resolves to. */
  lemma FindByIdAppend(groups: seq<RouteGroup>, extra: seq<RouteGroup>, id: int)
    requires FindById(groups, id).Some?
    ensures FindById(groups + extra, id) == FindById(groups, id)
  {
    FindAppend(groups, extra, (g: RouteGroup) => g.id == id);
  }
}

=== FILE: schema.dfy ===
/** The rows of the backend's relational store and the store itself.

    Every table is a sequence of rows in storage order, so that a `LIMIT 1` query
    without ORDER BY (the first row in storage order) has a definite meaning.
    Identifiers are integers: a request field that is absent or not a number
    reaches the services as 0, which JavaScript treats as falsy exactly like the
    absent value. Timestamps are naturals on a logical clock supplied by the caller. */
module Schema {
  import opened Outcome

  datatype Role = Admin | Employee

  datatype Status = Pending | Approved | Rejected

  /** A postal address; the core stores it without interpreting it. */
  datatype Address = Address(country: string, city: string, postalCode: string, street: string, streetNumber: string)

  datatype User = User(
    id: int,
    name: string,
    surname: string,
    email: string,
    passwordDigest: string,
    locationId: int,
    hasLicence: bool)

  datatype Company = Company(id: int, name: string)

  datatype Location = Location(id: int, address: Address)

  /** A link from a company to one of its locations (table `company_locations`). */
  datatype CompanyLocation = CompanyLocation(companyId: int, locationId: int)

  /** A row of `company_members`. */
  datatype Membership = Membership(
    companyId: int,
    userId: int,
    role: Role,
    status: Status,
    requestedAt: nat,
    approvedAt: Option<nat>)

  datatype Vehicle = Vehicle(id: int, companyId: int, name: string, plate: string, capacity: int)

  /** A row of `route_groups`. The table has a `company_location_id` column, but the
      insert never writes it, so it stays NULL (`None`) for every group created. */
  datatype RouteGroup = RouteGroup(
    id: int,
    companyId: int,
    vehicleId: int,
    locationId: Option<int>,
    name: string,
    active: bool)

  /** A row of `group_members`: one user's seat in a route group. */
  datatype GroupMember = GroupMember(groupId: int, userId: int, pickupOrder: int, isDriver: bool)

  datatype Db = Db(
    users: seq<User>,
    companies: seq<Company>,
    locations: seq<Location>,
    companyLocations: seq<CompanyLocation>,
    members: seq<Membership>,
    vehicles: seq<Vehicle>,
    groups: seq<RouteGroup>,
    groupMembers: seq<GroupMember>)

  /** The outcome of a service call: the store afterwards and the value or error
      returned to the caller. */
  datatype Step<+T> = Step(db: Db, out: Result<T>)

  /** A service call that fails with `kind` and `message` and leaves the store as it was. */
  function Reject<T>(db: Db, kind: ErrorKind, message: string): (r: Step<T>)
    ensures r.db == db && r.out.Failure?
    ensures r.out.error == Error(kind, message)
  {
    Step(db, Failure(Error(kind, message)))
  }

  /** A call that either failed without writing or succeeded. */
  ghost predicate Atomic<T>(before: Db, r: Step<T>) {
    r.out.Failure? ==> r.db == before
  }
}

=== FILE: tables.dfy ===
/** Generic operations on a table held as a sequence of rows in storage order:
    the WHERE filter, the first match of a `LIMIT 1` lookup, the ORDER BY sort,
    the conditional UPDATE, the auto-increment key, and pairwise uniqueness. */
module Tables {
  import opened Outcome

  /** Outcome of an insert into a table with a unique key: either the new table
      (possibly with the generated key) or the storage's duplicate-entry error. */
  datatype Write<+T> = Written(value: T) | DuplicateEntry

  /** The rows satisfying `p`, in storage order. */
  function Filter<T(!new)>(s: seq<T>, p: T -> bool): (r: seq<T>)
    ensures |r| <= |s|
    ensures forall i :: 0 <= i < |r| ==> p(r[i])
    ensures forall x {:trigger x in r} :: x in r <==> x in s && p(x)
  {
    if s == [] then []
    else if p(s[0]) then [s[0]] + Filter(s[1..], p)
    else Filter(s[1..], p)
  }

  /** Filtering keeps every row that satisfies `p` with its multiplicity and drops the others. */
  lemma {:induction false} FilterMultiset<T(!new)>(s: seq<T>, p: T -> bool)
    ensures forall x :: multiset(Filter(s, p))[x] == if p(x) then multiset(s)[x] else 0
  {
    if s != [] {
      FilterMultiset(s[1..], p);
      assert s == [s[0]] + s[1..];
      assert multiset(s) == multiset{s[0]} + multiset(s[1..]);
    }
  }

  /** Filtering a table with one more row at the end. */
  lemma {:induction false} FilterAppend<T(!new)>(s: seq<T>, x: T, p: T -> bool)
    ensures Filter(s + [x], p) == Filter(s, p) + (if p(x) then [x] else [])
  {
    if s != [] {
      assert (s + [x])[1..] == s[1..] + [x];
      FilterAppend(s[1..], x, p);
    } else {
      assert s + [x] == [x];
    }
  }

  /** Filtering two tables one after the other is filtering their concatenation:
      the rows kept keep their storage order. */
  lemma {:induction false} FilterConcat<T(!new)>(a: seq<T>, b: seq<T>, p: T -> bool)
    ensures Filter(a + b, p) == Filter(a, p) + Filter(b, p)
  {
    if a == [] {
      assert a + b == b;
    } else {
      assert (a + b)[1..] == a[1..] + b;
      FilterConcat(a[1..], b, p);
    }
  }

  /** A filter that rejects exactly the row at position `k` removes that row and
      keeps every other one in place. */
  lemma {:induction false} FilterDropsOne<T(!new)>(s: seq<T>, p: T -> bool, k: nat)
    requires k < |s| && !p(s[k])
    requires forall i :: 0 <= i < |s| && i != k ==> p(s[i])
    ensures Filter(s, p) == s[..k] + s[k + 1..]
  {
    var before, after := s[..k], s[k + 1..];
    assert s == before + [s[k]] + after;
    forall i | 0 <= i < |before|
      ensures p(before[i])
    {
      assert before[i] == s[i];
    }
    forall i | 0 <= i < |after|
      ensures p(after[i])
    {
      assert after[i] == s[k + 1 + i];
    }
    FilterAll(before, p);
    FilterAll(after, p);
    FilterConcat(before + [s[k]], after, p);
    FilterConcat(before, [s[k]], p);
    assert Filter([s[k]], p) == [] by {
      assert [s[k]][1..] == [];
    }
  }

  /** Two tables of the same length whose rows agree, position by position, on
      the filter's verdict give filters of the same size. */
  lemma {:induction false} FilterSameVerdicts<T(!new)>(s: seq<T>, t: seq<T>, p: T -> bool, q: T -> bool)
    requires |s| == |t|
    requires forall i :: 0 <= i < |s| ==> p(s[i]) == q(t[i])
    ensures |Filter(s, p)| == |Filter(t, q)|
  {
    if s != [] {
      FilterSameVerdicts(s[1..], t[1..], p, q);
    }
  }

  /** A second filter never finds more rows than it finds in the unfiltered table. */
  lemma {:induction false} FilterOfFilter<T(!new)>(s: seq<T>, p: T -> bool, q: T -> bool)
    ensures |Filter(Filter(s, p), q)| <= |Filter(s, q)|
  {
    if s != [] {
      FilterOfFilter(s[1..], p, q);
      if p(s[0]) {
        assert Filter(s, p) == [s[0]] + Filter(s[1..], p);
        assert ([s[0]] + Filter(s[1..], p))[1..] == Filter(s[1..], p);
      }
    }
  }

  /** A filter that every row passes keeps the whole table. */
  lemma {:induction false} FilterAll<T(!new)>(s: seq<T>, p: T -> bool)
    requires forall i :: 0 <= i < |s| ==> p(s[i])
    ensures Filter(s, p) == s
  {
    if s != [] {
      FilterAll(s[1..], p);
      assert s == [s[0]] + s[1..];
    }
  }

  /** A filter that rejects some row is strictly shorter than the table. */
  lemma {:induction false} FilterDrops<T(!new)>(s: seq<T>, p: T -> bool)
    requires exists i :: 0 <= i < |s| && !p(s[i])
    ensures |Filter(s, p)| < |s|
  {
    if p(s[0]) {
      var i :| 0 <= i < |s| && !p(s[i]);
      assert s[1..][i - 1] == s[i];
      FilterDrops(s[1..], p);
    }
  }

  /** A filter is empty exactly when no row satisfies it. */
  lemma FilterEmpty<T(!new)>(s: seq<T>, p: T -> bool)
    ensures |Filter(s, p)| == 0 <==> forall i :: 0 <= i < |s| ==> !p(s[i])
  {
    if |Filter(s, p)| != 0 {
      assert Filter(s, p)[0] in Filter(s, p);
    }
    if exists i :: 0 <= i < |s| && p(s[i]) {
      var i :| 0 <= i < |s| && p(s[i]);
      assert s[i] in Filter(s, p);
    }
  }

  /** The first row satisfying `p`, as a `LIMIT 1` query without ORDER BY returns it. */
  function Find<T>(s: seq<T>, p: T -> bool): (r: Option<T>)
    ensures r.None? <==> forall i :: 0 <= i < |s| ==> !p(s[i])
    ensures r.Some? ==> r.value in s && p(r.value)
  {
    if s == [] then None
    else if p(s[0]) then Some(s[0])
    else Find(s[1..], p)
  }

  /** Appending rows never changes a lookup that already succeeds, and a lookup that
      failed sees only the appended rows. */
  lemma {:induction false} FindAppend<T>(s: seq<T>, t: seq<T>, p: T -> bool)
    ensures Find(s + t, p) == if Find(s, p).Some? then Find(s, p) else Find(t, p)
  {
    if s == [] {
      assert s + t == t;
    } else {
      assert (s + t)[1..] == s[1..] + t;
      FindAppend(s[1..], t, p);
    }
  }

  /** The key an auto-increment column hands out next: above every key in use. */
  function NextId<T>(s: seq<T>, id: T -> int): (r: int)
    ensures r >= 1
    ensures forall i :: 0 <= i < |s| ==> id(s[i]) < r
  {
    if s == [] then 1
    else
      var rest := NextId(s[1..], id);
      if id(s[0]) < rest then rest else id(s[0]) + 1
  }

  /** Every two rows at distinct positions are related by `R` (a uniqueness constraint
      when `R` says the two rows' keys differ). */
  ghost predicate Pairwise<T>(s: seq<T>, R: (T, T) -> bool) {
    forall i, j :: 0 <= i < j < |s| ==> R(s[i], s[j])
  }

  lemma PairwiseAppend<T>(s: seq<T>, x: T, R: (T, T) -> bool)
    requires Pairwise(s, R)
    requires forall i :: 0 <= i < |s| ==> R(s[i], x)
    ensures Pairwise(s + [x], R)
  {
  }

  /** Deleting rows keeps a uniqueness constraint. */
  lemma {:induction false} PairwiseFilter<T(!new)>(s: seq<T>, p: T -> bool, R: (T, T) -> bool)
    requires Pairwise(s, R)
    ensures Pairwise(Filter(s, p), R)
  {
    if s != [] {
      assert Pairwise(s[1..], R);
      PairwiseFilter(s[1..], p, R);
      if p(s[0]) {
        var f := Filter(s[1..], p);
        forall j | 0 <= j < |f|
          ensures R(s[0], f[j])
        {
          assert f[j] in f;
          assert f[j] in s[1..];
          var k :| 0 <= k < |s[1..]| && s[1..][k] == f[j];
          assert s[k + 1] == f[j];
        }
      }
    }
  }

  /** The rows are in ascending order of `key`. */
  predicate SortedBy<T>(s: seq<T>, key: T -> int) {
    forall i, j :: 0 <= i < j < |s| ==> key(s[i]) <= key(s[j])
  }

  /** Everything that a sorted tail and a larger key can contribute stays above the head. */
  lemma AboveHead<T>(x: T, s: seq<T>, rest: seq<T>, key: T -> int)
    requires SortedBy(s, key) && s != [] && key(s[0]) < key(x)
    requires multiset(rest) == multiset(s[1..]) + multiset{x}
    ensures forall k :: 0 <= k < |rest| ==> key(s[0]) <= key(rest[k])
  {
    forall k | 0 <= k < |rest|
      ensures key(s[0]) <= key(rest[k])
    {
      assert rest[k] in multiset(rest);
      if rest[k] != x {
        assert rest[k] in multiset(s[1..]);
        var j :| 0 <= j < |s[1..]| && s[1..][j] == rest[k];
        assert key(s[0]) <= key(s[j + 1]);
      }
    }
  }

  /** A head no larger than anything in a sorted tail gives a sorted sequence. */
  lemma ConsSorted<T>(y: T, rest: seq<T>, key: T -> int)
    requires SortedBy(rest, key)
    requires forall k :: 0 <= k < |rest| ==> key(y) <= key(rest[k])
    ensures SortedBy([y] + rest, key)
  {
    var r := [y] + rest;
    assert forall i :: 0 < i < |r| ==> r[i] == rest[i - 1];
  }

  function InsertBy<T>(x: T, s: seq<T>, key: T -> int): (r: seq<T>)
    requires SortedBy(s, key)
    ensures SortedBy(r, key)
    ensures multiset(r) == multiset(s) + multiset{x}
  {
    if s == [] then [x]
    else if key(x) <= key(s[0]) then [x] + s
    else
      var rest := InsertBy(x, s[1..], key);
      AboveHead(x, s, rest, key);
      ConsSorted(s[0], rest, key);
      assert s == [s[0]] + s[1..];
      [s[0]] + rest
  }

  /** ORDER BY `key` ASC: a sorted permutation of the rows. */
  function SortBy<T(!new)>(s: seq<T>, key: T -> int): (r: seq<T>)
    ensures SortedBy(r, key)
    ensures multiset(r) == multiset(s)
  {
    if s == [] then []
    else
      assert s == [s[0]] + s[1..];
      InsertBy(s[0], SortBy(s[1..], key), key)
  }

  /** SELECT ... WHERE `p` ORDER BY `key` ASC: exactly the matching rows, as many
      times as they occur, sorted. */
  function SelectSorted<T(!new)>(s: seq<T>, p: T -> bool, key: T -> int): (r: seq<T>)
    ensures forall x :: multiset(r)[x] == if p(x) then multiset(s)[x] else 0
    ensures forall i :: 0 <= i < |r| ==> p(r[i])
    ensures SortedBy(r, key)
  {
    FilterMultiset(s, p);
    var r := SortBy(Filter(s, p), key);
    assert forall i :: 0 <= i < |r| ==> r[i] in multiset(Filter(s, p));
    r
  }

  /** What SelectSorted promises, for a caller to instantiate without unfolding it. */
  lemma SelectedRows<T(!new)>(s: seq<T>, p: T -> bool, key: T -> int, r: seq<T>)
    requires r == SelectSorted(s, p, key)
    ensures forall x {:trigger multiset(r)[x]} :: multiset(r)[x] == if p(x) then multiset(s)[x] else 0
    ensures forall i :: 0 <= i < |r| ==> p(r[i])
    ensures forall i, j :: 0 <= i < j < |r| ==> key(r[i]) <= key(r[j])
  {
  }

  /** UPDATE ... WHERE `p`: every matching row is rewritten by `f`, the others are
      kept; the second component is the number of affected rows. */
  function UpdateWhere<T(!new)>(s: seq<T>, p: T -> bool, f: T -> T): (r: (seq<T>, nat))
    ensures |r.0| == |s|
    ensures forall i :: 0 <= i < |s| ==> r.0[i] == if p(s[i]) then f(s[i]) else s[i]
    ensures r.1 == |Filter(s, p)|
  {
    if s == [] then ([], 0)
    else
      var rest := UpdateWhere(s[1..], p, f);
      if p(s[0]) then ([f(s[0])] + rest.0, rest.1 + 1)
      else ([s[0]] + rest.0, rest.1)
  }
}

=== FILE: transport_service.dfy ===
/** The admin's transport service: vehicles, route groups, and the assignment of
    approved members to seats of a group. The company is always the one the admin
    gate derived from the admin's own membership. The vehicle and route-group
    services in their own files apply the same rules to vehicles and groups. */
module TransportService {
  import opened Outcome
  import opened Schema
  import opened Tables
  import CompanyMembers
  import CompanyLocations
  import Directory
  import Vehicles
  import RouteGroups
  import GroupMembers

  const MissingVehicleFields := "Missing vehicle name or license plate"
  const BadCapacity := "Capacity must be > 0"
  const PlateExists := "License plate already exists"
  const MissingGroupFields := "Missing vehicle_id, company_location_id or name"
  const VehicleNotOwned := "Vehicle not found for this company"
  const InvalidLocation := "Invalid company location"
  const VehicleGrouped := "This vehicle is already assigned to a group"
  const BadSeatInput := "Missing/invalid group_id, user_id or pickup_order"
  const GroupNotOwned := "Group not found for this company"
  const NotApproved := "User is not an approved member of this company"
  const VehicleMissing := "Vehicle not found"
  const CapacityExceeded := "Group capacity exceeded"
  const DriverNeedsLicence := "Driver must have a driver's licence"
  const DuplicateSeat := "User already in group or pickup order already used"
  const SeatNotFound := "Member not found in group"

  // ---------------------------------------------------------------- vehicles

  /** Creates a vehicle of the company. Missing name or plate is checked first, then a
      missing or non-positive capacity (both BadRequest, before any write); a plate
      already on record is Conflict. Success adds exactly one vehicle, with the given
      fields, under a fresh id, which it returns. */
  function CreateVehicle(db: Db, companyId: int, name: string, plate: string, capacity: int): (r: Step<int>)
    ensures Atomic(db, r)
    ensures |name| == 0 || |plate| == 0 ==> r.out == Failure(Error(BadRequest, MissingVehicleFields))
    ensures |name| > 0 && |plate| > 0 && capacity <= 0 ==> r.out == Failure(Error(BadRequest, BadCapacity))
    ensures |name| > 0 && |plate| > 0 && capacity > 0 && Vehicles.PlateTaken(db.vehicles, plate) ==>
      r.out == Failure(Error(Conflict, PlateExists))
    ensures r.out.Success? <==> |name| > 0 && |plate| > 0 && capacity > 0 && !Vehicles.PlateTaken(db.vehicles, plate)
    ensures r.out.Success? ==>
      && r.db == db.(vehicles := db.vehicles + [Vehicle(r.out.value, companyId, name, plate, capacity)])
      && Vehicles.FindById(db.vehicles, r.out.value).None?
  {
    if |name| == 0 || |plate| == 0 then Reject(db, BadRequest, MissingVehicleFields)
    else if capacity <= 0 then Reject(db, BadRequest, BadCapacity)
    else
      match Vehicles.CreateVehicle(db.vehicles, companyId, name, plate, capacity)
      case DuplicateEntry => Reject(db, Conflict, PlateExists)
      case Written((vehicles, id)) => Step(db.(vehicles := vehicles), Success(id))
  }

  /** The company's vehicles and no other company's, newest first. */
  function ListVehicles(db: Db, companyId: int): (r: seq<Vehicle>)
    ensures forall v :: v in r <==> v in db.vehicles && v.companyId == companyId
    ensures forall v :: multiset(r)[v] == if v.companyId == companyId then multiset(db.vehicles)[v] else 0
    ensures forall i, j :: 0 <= i < j < |r| ==> r[i].id >= r[j].id
  {
    var r := Vehicles.ListByCompanyId(db.vehicles, companyId);
    assert forall v :: v in r <==> v in multiset(r);
    r
  }

  // ------------------------------------------------------------ route groups

  /** Whether the vehicle exists and belongs to the company. */
  predicate OwnsVehicle(db: Db, companyId: int, vehicleId: int) {
    Vehicles.FindById(db.vehicles, vehicleId).Some? && Vehicles.FindById(db.vehicles, vehicleId).value.companyId == companyId
  }

  /** Creates an active route group on a vehicle at a company location. In order: a
      missing field is BadRequest; a vehicle that is absent or another company's is
      NotFound; a location not linked to the company is Conflict; a vehicle that
      already has a group is Conflict. Success adds exactly one active group, without
      its location, under a fresh id, which it returns. */
  function CreateRouteGroup(db: Db, companyId: int, vehicleId: int, locationId: int, name: string): (r: Step<int>)
    ensures Atomic(db, r)
    ensures vehicleId == 0 || locationId == 0 || |name| == 0 ==> r.out == Failure(Error(BadRequest, MissingGroupFields))
    ensures vehicleId != 0 && locationId != 0 && |name| > 0 && !OwnsVehicle(db, companyId, vehicleId) ==>
      r.out == Failure(Error(NotFound, VehicleNotOwned))
    ensures (vehicleId != 0 && locationId != 0 && |name| > 0 && OwnsVehicle(db, companyId, vehicleId)
             && !CompanyLocations.IsCompanyLocation(db.companyLocations, companyId, locationId)) ==>
      r.out == Failure(Error(Conflict, InvalidLocation))
    ensures (vehicleId != 0 && locationId != 0 && |name| > 0 && OwnsVehicle(db, companyId, vehicleId)
             && CompanyLocations.IsCompanyLocation(db.companyLocations, companyId, locationId)
             && RouteGroups.VehicleGrouped(db.groups, vehicleId)) ==>
      r.out == Failure(Error(Conflict, VehicleGrouped))
    ensures r.out.Success? <==>
      vehicleId != 0 && locationId != 0 && |name| > 0 && OwnsVehicle(db, companyId, vehicleId)
      && CompanyLocations.IsCompanyLocation(db.companyLocations, companyId, locationId)
      && !RouteGroups.VehicleGrouped(db.groups, vehicleId)
    ensures r.out.Success? ==>
      && r.db == db.(groups := db.groups + [RouteGroup(r.out.value, companyId, vehicleId, None, name, true)])
      && RouteGroups.FindById(db.groups, r.out.value).None?
  {
    if vehicleId == 0 || locationId == 0 || |name| == 0 then Reject(db, BadRequest, MissingGroupFields)
    else if !OwnsVehicle(db, companyId, vehicleId) then Reject(db, NotFound, VehicleNotOwned)
    else if !CompanyLocations.IsCompanyLocation(db.companyLocations, companyId, locationId) then
      Reject(db, Conflict, InvalidLocation)
    else
      match RouteGroups.CreateRouteGroup(db.groups, companyId, vehicleId, name, true)
      case DuplicateEntry => Reject(db, Conflict, VehicleGrouped)
      case Written((groups, id)) => Step(db.(groups := groups), Success(id))
  }

  /** The location checked at creation is not what the group stores: every group the
      service creates has no location. */
  lemma CreatedGroupHasNoLocation(db: Db, companyId: int, vehicleId: int, locationId: int, name: string)
    requires CreateRouteGroup(db, companyId, vehicleId, locationId, name).out.Success?
    ensures var r := CreateRouteGroup(db, companyId, vehicleId, locationId, name);
      RouteGroups.FindById(r.db.groups, r.out.value).Some?
      && RouteGroups.FindById(r.db.groups, r.out.value).value.locationId.None?
  {
    var r := CreateRouteGroup(db, companyId, vehicleId, locationId, name);
    FindAppend(db.groups, [RouteGroup(r.out.value, companyId, vehicleId, None, name, true)],
               (g: RouteGroup) => g.id == r.out.value);
  }

  /** The company's groups and no other company's, newest first. */
  function ListRouteGroups(db: Db, companyId: int): (r: seq<RouteGroup>)
    ensures forall g :: g in r <==> g in db.groups && g.companyId == companyId
    ensures forall g :: multiset(r)[g] == if g.companyId == companyId then multiset(db.groups)[g] else 0
    ensures forall i, j :: 0 <= i < j < |r| ==> r[i].id >= r[j].id
  {
    var r := RouteGroups.ListByCompanyId(db.groups, companyId);
    assert forall g :: g in r <==> g in multiset(r);
    r
  }

  // ------------------------------------------------------------ group members

  /** Whether the group exists and belongs to the company. */
  predicate OwnsGroup(db: Db, companyId: int, groupId: int) {
    RouteGroups.FindById(db.groups, groupId).Some? && RouteGroups.FindById(db.groups, groupId).value.companyId == companyId
  }

  /** Whether the user's (first) membership row for the company is APPROVED. */
  predicate IsApprovedMember(db: Db, companyId: int, userId: int) {
    CompanyMembers.FindMembership(db.members, companyId, userId).Some?
    && CompanyMembers.FindMembership(db.members, companyId, userId).value.status == Approved
  }

  /** Whether the user exists and holds a driver's licence. */
  predicate HoldsLicence(db: Db, userId: int) {
    Directory.FindUser(db.users, userId).Some? && Directory.FindUser(db.users, userId).value.hasLicence
  }

  /** The vehicle of an existing group, if it exists. */
  function GroupVehicle(db: Db, groupId: int): (r: Option<Vehicle>)
    requires RouteGroups.FindById(db.groups, groupId).Some?
    ensures r.Some? ==> r.value in db.vehicles && r.value.id == RouteGroups.FindById(db.groups, groupId).value.vehicleId
  {
    Vehicles.FindById(db.vehicles, RouteGroups.FindById(db.groups, groupId).value.vehicleId)
  }

  /** The seats after a successful insert: when the new seat is the driver's, every
      other seat of the group first loses its driver flag. */
  function Seated(rows: seq<GroupMember>, groupId: int, userId: int, pickupOrder: int, isDriver: bool): seq<GroupMember> {
    (if isDriver then GroupMembers.ClearDriver(rows, groupId) else rows)
      + [GroupMember(groupId, userId, pickupOrder, isDriver)]
  }

  /** Seats a user in a route group of the company. The checks run in order and the
      first that fails decides the error: invalid input (BadRequest), a group that is
      absent or another company's (NotFound), a user who is not an APPROVED member of
      the company (Conflict), a missing vehicle (NotFound), a full group (Conflict), a
      driver without a licence (Conflict). The write then clears the group's driver
      flags (for a driver seat) and inserts the seat as one transaction: a duplicate
      user or pickup order in the group is Conflict and rolls the whole write back. */
  function AddMemberToGroup(db: Db, companyId: int, groupId: int, userId: int, pickupOrder: int, isDriver: bool)
    : (r: Step<()>)
    ensures Atomic(db, r)
    ensures groupId == 0 || userId == 0 || pickupOrder <= 0 ==> r.out == Failure(Error(BadRequest, BadSeatInput))
    ensures groupId != 0 && userId != 0 && pickupOrder > 0 ==>
      && (!OwnsGroup(db, companyId, groupId) ==> r.out == Failure(Error(NotFound, GroupNotOwned)))
      && (OwnsGroup(db, companyId, groupId) ==>
            && (!IsApprovedMember(db, companyId, userId) ==> r.out == Failure(Error(Conflict, NotApproved)))
            && (IsApprovedMember(db, companyId, userId) ==>
                  && (GroupVehicle(db, groupId).None? ==> r.out == Failure(Error(NotFound, VehicleMissing)))
                  && (GroupVehicle(db, groupId).Some? ==>
                        var capacity := GroupVehicle(db, groupId).value.capacity;
                        var count := GroupMembers.CountMembers(db.groupMembers, groupId);
                        && (count >= capacity ==> r.out == Failure(Error(Conflict, CapacityExceeded)))
                        && (count < capacity && isDriver && !HoldsLicence(db, userId) ==>
                              r.out == Failure(Error(Conflict, DriverNeedsLicence)))
                        && (count < capacity && (isDriver ==> HoldsLicence(db, userId)) ==>
                              if GroupMembers.Collides(db.groupMembers, groupId, userId, pickupOrder)
                              then r.out == Failure(Error(Conflict, DuplicateSeat))
                              else r.out.Success?))))
    ensures r.out.Success? ==>
      && OwnsGroup(db, companyId, groupId) && IsApprovedMember(db, companyId, userId)
      && GroupVehicle(db, groupId).Some?
      && GroupMembers.CountMembers(db.groupMembers, groupId) < GroupVehicle(db, groupId).value.capacity
      && (isDriver ==> HoldsLicence(db, userId))
      && !GroupMembers.Collides(db.groupMembers, groupId, userId, pickupOrder)
    ensures r.out.Success? ==>
      && r.db == db.(groupMembers := Seated(db.groupMembers, groupId, userId, pickupOrder, isDriver))
      && GroupMembers.CountMembers(r.db.groupMembers, groupId) == GroupMembers.CountMembers(db.groupMembers, groupId) + 1
      && GroupMembers.CountMembers(r.db.groupMembers, groupId) <= GroupVehicle(db, groupId).value.capacity
  {
    if groupId == 0 || userId == 0 || pickupOrder <= 0 then Reject(db, BadRequest, BadSeatInput)
    else if !OwnsGroup(db, companyId, groupId) then Reject(db, NotFound, GroupNotOwned)
    else if !IsApprovedMember(db, companyId, userId) then Reject(db, Conflict, NotApproved)
    else
      match GroupVehicle(db, groupId)
      case None => Reject(db, NotFound, VehicleMissing)
      case Some(vehicle) =>
        if GroupMembers.CountMembers(db.groupMembers, groupId) >= vehicle.capacity then
          Reject(db, Conflict, CapacityExceeded)
        else if isDriver && !HoldsLicence(db, userId) then Reject(db, Conflict, DriverNeedsLicence)
        else
          var staged := if isDriver then GroupMembers.ClearDriver(db.groupMembers, groupId) else db.groupMembers;
          SeatedStaged(db.groupMembers, groupId, userId, pickupOrder, isDriver);
          match GroupMembers.AddMember(staged, groupId, userId, pickupOrder, isDriver)
          case DuplicateEntry => Reject(db, Conflict, DuplicateSeat)
          case Written(rows) => Step(db.(groupMembers := rows), Success(()))
  }

  /** Staging a seat (clearing the group's driver flags first when it is a driver
      seat) changes neither what the new seat collides with nor any group's count
      except the seat's own, which grows by one. */
  lemma SeatedStaged(rows: seq<GroupMember>, groupId: int, userId: int, pickupOrder: int, isDriver: bool)
    ensures var staged := if isDriver then GroupMembers.ClearDriver(rows, groupId) else rows;
      && (GroupMembers.Collides(staged, groupId, userId, pickupOrder) <==> GroupMembers.Collides(rows, groupId, userId, pickupOrder))
      && staged + [GroupMember(groupId, userId, pickupOrder, isDriver)] == Seated(rows, groupId, userId, pickupOrder, isDriver)
      && GroupMembers.CountMembers(Seated(rows, groupId, userId, pickupOrder, isDriver), groupId)
         == GroupMembers.CountMembers(rows, groupId) + 1
  {
    var staged := if isDriver then GroupMembers.ClearDriver(rows, groupId) else rows;
    if GroupMembers.Collides(staged, groupId, userId, pickupOrder) {
      var i :| 0 <= i < |staged| && staged[i].groupId == groupId
        && (staged[i].userId == userId || staged[i].pickupOrder == pickupOrder);
      assert rows[i].groupId == groupId;
    }
    if GroupMembers.Collides(rows, groupId, userId, pickupOrder) {
      var i :| 0 <= i < |rows| && rows[i].groupId == groupId
        && (rows[i].userId == userId || rows[i].pickupOrder == pickupOrder);
      assert staged[i].groupId == groupId;
    }
    GroupMembers.CountAfterClear(rows, groupId, groupId);
    GroupMembers.CountAfterAdd(staged, GroupMember(groupId, userId, pickupOrder, isDriver), groupId);
  }

  /** A driver seat makes the new seat the group's only driver, demotes the group's
      previous driver, and leaves every other group's seats as they were. */
  lemma NewDriverIsOnlyDriver(db: Db, companyId: int, groupId: int, userId: int, pickupOrder: int)
    requires AddMemberToGroup(db, companyId, groupId, userId, pickupOrder, true).out.Success?
    ensures var rows := AddMemberToGroup(db, companyId, groupId, userId, pickupOrder, true).db.groupMembers;
      && |rows| == |db.groupMembers| + 1
      && rows[|rows| - 1] == GroupMember(groupId, userId, pickupOrder, true)
      && (forall i :: 0 <= i < |rows| && rows[i].groupId == groupId && rows[i].isDriver ==> i == |rows| - 1)
      && (forall i :: 0 <= i < |db.groupMembers| && db.groupMembers[i].groupId != groupId ==> rows[i] == db.groupMembers[i])
  {
    SeatedDriverIsOnlyDriver(db.groupMembers, groupId, userId, pickupOrder);
  }

  lemma SeatedDriverIsOnlyDriver(rows: seq<GroupMember>, groupId: int, userId: int, pickupOrder: int)
    ensures var r := Seated(rows, groupId, userId, pickupOrder, true);
      && |r| == |rows| + 1
      && r[|r| - 1] == GroupMember(groupId, userId, pickupOrder, true)
      && (forall i :: 0 <= i < |r| && r[i].groupId == groupId && r[i].isDriver ==> i == |r| - 1)
      && (forall i :: 0 <= i < |rows| && rows[i].groupId != groupId ==> r[i] == rows[i])
  {
    var cleared := GroupMembers.ClearDriver(rows, groupId);
    var r := cleared + [GroupMember(groupId, userId, pickupOrder, true)];
    assert forall i :: 0 <= i < |rows| ==> r[i] == cleared[i];
  }

  /** A passenger seat leaves every existing seat, driver flags included, as it was. */
  lemma PassengerKeepsDriverFlags(db: Db, companyId: int, groupId: int, userId: int, pickupOrder: int)
    requires AddMemberToGroup(db, companyId, groupId, userId, pickupOrder, false).out.Success?
    ensures var rows := AddMemberToGroup(db, companyId, groupId, userId, pickupOrder, false).db.groupMembers;
      && rows[..|db.groupMembers|] == db.groupMembers
      && rows[|db.groupMembers|] == GroupMember(groupId, userId, pickupOrder, false)
  {
  }

  /** A driver seat that passes every check but collides with a seat of the group
      fails with Conflict, and the group's existing driver keeps the flag the
      transaction had already cleared before the insert failed. */
  lemma DuplicateDriverSeatRollsBack(db: Db, companyId: int, groupId: int, userId: int, pickupOrder: int, k: nat)
    requires groupId != 0 && userId != 0 && pickupOrder > 0
    requires OwnsGroup(db, companyId, groupId) && IsApprovedMember(db, companyId, userId) && HoldsLicence(db, userId)
    requires GroupVehicle(db, groupId).Some?
    requires GroupMembers.CountMembers(db.groupMembers, groupId) < GroupVehicle(db, groupId).value.capacity
    requires GroupMembers.Collides(db.groupMembers, groupId, userId, pickupOrder)
    requires k < |db.groupMembers| && db.groupMembers[k].groupId == groupId && db.groupMembers[k].isDriver
    ensures var r := AddMemberToGroup(db, companyId, groupId, userId, pickupOrder, true);
      r.out == Failure(Error(Conflict, DuplicateSeat)) && r.db.groupMembers[k].isDriver
  {
  }

  /** The seats of a group of the company, by pickup order; another company's group is NotFound. */
  function ListGroupMembers(db: Db, companyId: int, groupId: int): (r: Result<seq<GroupMember>>)
    ensures r.Failure? <==> !OwnsGroup(db, companyId, groupId)
    ensures r.Failure? ==> r.error == Error(NotFound, GroupNotOwned)
    ensures r.Success? ==> forall m :: m in r.value <==> m in db.groupMembers && m.groupId == groupId
    ensures r.Success? ==> forall m :: multiset(r.value)[m] == if m.groupId == groupId then multiset(db.groupMembers)[m] else 0
    ensures r.Success? ==> forall i, j :: 0 <= i < j < |r.value| ==> r.value[i].pickupOrder <= r.value[j].pickupOrder
  {
    if !OwnsGroup(db, companyId, groupId) then Failure(Error(NotFound, GroupNotOwned))
    else
      var r := GroupMembers.ListMembers(db.groupMembers, groupId);
      assert forall m :: m in r <==> m in multiset(r);
      Success(r)
  }

  /** Removes the user's seat from a group of the company. A group that is absent or
      another company's, and a seat that does not exist, are NotFound. Success deletes
      that seat and nothing else; no other seat is promoted to driver. */
  function RemoveMemberFromGroup(db: Db, companyId: int, groupId: int, userId: int): (r: Step<()>)
    ensures Atomic(db, r)
    ensures !OwnsGroup(db, companyId, groupId) ==> r.out == Failure(Error(NotFound, GroupNotOwned))
    ensures OwnsGroup(db, companyId, groupId) && r.out.Failure? ==> r.out.error == Error(NotFound, SeatNotFound)
    ensures r.out.Success? <==>
      && OwnsGroup(db, companyId, groupId)
      && exists i :: 0 <= i < |db.groupMembers| && GroupMembers.SeatOf(db.groupMembers[i], groupId, userId)
    ensures r.out.Success? ==>
      && r.db == db.(groupMembers := r.db.groupMembers)
      && |r.db.groupMembers| < |db.groupMembers|
      && (forall m :: m in r.db.groupMembers <==> m in db.groupMembers && !GroupMembers.SeatOf(m, groupId, userId))
      && (forall m :: multiset(r.db.groupMembers)[m] ==
            if GroupMembers.SeatOf(m, groupId, userId) then 0 else multiset(db.groupMembers)[m])
      && r.db.groupMembers == Filter(db.groupMembers, GroupMembers.KeptSeat(groupId, userId))
  {
    if !OwnsGroup(db, companyId, groupId) then Reject(db, NotFound, GroupNotOwned)
    else
      var (rows, removed) := GroupMembers.RemoveMember(db.groupMembers, groupId, userId);
      if removed == 0 then Reject(db, NotFound, SeatNotFound)
      else Step(db.(groupMembers := rows), Success(()))
  }

  /** Under the unique (group, user) key, removing the seat at position `k` from a
      group of the company succeeds and leaves every other seat where it was. */
  lemma RemoveDeletesOneSeat(db: Db, companyId: int, groupId: int, userId: int, k: nat)
    requires Pairwise(db.groupMembers, GroupMembers.DistinctSeats)
    requires OwnsGroup(db, companyId, groupId)
    requires k < |db.groupMembers| && GroupMembers.SeatOf(db.groupMembers[k], groupId, userId)
    ensures var r := RemoveMemberFromGroup(db, companyId, groupId, userId);
      && r.out.Success?
      && r.db == db.(groupMembers := db.groupMembers[..k] + db.groupMembers[k + 1..])
  {
    GroupMembers.RemoveSeatInPlace(db.groupMembers, groupId, userId, k);
  }
}

=== FILE: vehicles.dfy ===
/** The `vehicles` table. License plates are a unique key. */
module Vehicles {
  import opened Outcome
  import opened Schema
  import opened Tables

  function VehicleId(v: Vehicle): int { v.id }

  /** Sort key for ORDER BY id DESC. */
  function NegatedId(v: Vehicle): int { -v.id }

  predicate PlateTaken(vehicles: seq<Vehicle>, plate: string) {
    exists i :: 0 <= i < |vehicles| && vehicles[i].plate == plate
  }

  function FindById(vehicles: seq<Vehicle>, id: int): (r: Option<Vehicle>)
    ensures r.None? <==> forall i :: 0 <= i < |vehicles| ==> vehicles[i].id != id
    ensures r.Some? ==> r.value in vehicles && r.value.id == id
  {
    Find(vehicles, (v: Vehicle) => v.id == id)
  }

  /** Inserts a vehicle with the given fields unchanged under a fresh id and returns
      that id; a plate already on record is a duplicate entry. */
  function CreateVehicle(vehicles: seq<Vehicle>, companyId: int, name: string, plate: string, capacity: int)
    : (r: Write<(seq<Vehicle>, int)>)
    ensures r.DuplicateEntry? <==> PlateTaken(vehicles, plate)
    ensures r.Written? ==>
      var (vehicles', id) := r.value;
      && vehicles' == vehicles + [Vehicle(id, companyId, name, plate, capacity)]
      && FindById(vehicles, id).None?
      && FindById(vehicles', id) == Some(Vehicle(id, companyId, name, plate, capacity))
  {
    if PlateTaken(vehicles, plate) then DuplicateEntry
    else
      var id := NextId(vehicles, VehicleId);
      var v := Vehicle(id, companyId, name, plate, capacity);
      FindAppend(vehicles, [v], (v: Vehicle) => v.id == id);
      Written((vehicles + [v], id))
  }

  /** The company's vehicles, newest id first. */
  function ListByCompanyId(vehicles: seq<Vehicle>, companyId: int): (r: seq<Vehicle>)
    ensures forall v :: multiset(r)[v] == if v.companyId == companyId then multiset(vehicles)[v] else 0
    ensures forall i :: 0 <= i < |r| ==> r[i].companyId == companyId
    ensures forall i, j :: 0 <= i < j < |r| ==> r[i].id >= r[j].id
  {
    var p := (v: Vehicle) => v.companyId == companyId;
    var r := SelectSorted(vehicles, p, NegatedId);
    SelectedRows(vehicles, p, NegatedId, r);
    r
  }

  /** Adding vehicles never changes the vehicle an existing id resolves to. */
  lemma FindByIdAppend(vehicles: seq<Vehicle>, extra: seq<Vehicle>, id: int)
    requires FindById(vehicles, id).Some?
    ensures FindById(vehicles + extra, id) == FindById(vehicles, id)
  {
    FindAppend(vehicles, extra, (v: Vehicle) => v.id == id);
  }
}
